=== FILE: README.md ===
# Traffic-signal simulator: a verified model of its engines

This project models the two simulation engines of a browser traffic-signal
simulator and the figures its dashboard derives from them. Every engine
step is a pure Dafny function of an immutable state record.

- **Advanced engine** (`useAdvancedTrafficSimulation.ts`). One primary
  intersection with four approaches, run in one-second ticks. Each tick:
  - adds random arrivals, scaled by the time of day and the weather;
  - lets vehicles depart on green approaches;
  - counts down emergency preemption and pedestrian phases;
  - samples the queues into a bounded history;
  - picks the next lights by strict priority: emergency route, then
    pedestrian phase, then the normal four-phase cycle;
  - advances three offset secondary intersections in a green wave;
  - refreshes the metrics.

  The adaptive timing splits the cycle in proportion to the recent
  north–south and east–west loads, with a minimum green. The handlers are
  modelled too: emergency trigger, crossing request, weather, green wave,
  run/stop, reset and the three configuration sliders.
- **Simple engine** (`useTrafficSimulation.ts`). The same four-phase cycle
  and adaptive timing, but no overrides, no weather and no secondaries.
  Each approach takes its own arrival draw.
- **Dashboard** (`Index.tsx`). The `m:ss` clock label, the congestion
  badge, the status banner, the open-request counter and the
  synchronized-intersection counter.

## Modules

- `Traffic`: directions, axes, lights, queue counts, and the safety
  predicates `Safe` (no dark head, some axis red) and `OneAxisMoving`.
- `Weather`: the impact table and the weather-scaled discharge rate.
- `Window`: the `[...prev.slice(-k), x]` bounded buffer and the
  every-ten-seconds sampling step both engines share.
- `Arith`: small division and modulo facts.
- `Phases`: slider bounds, adaptive timing, cycle length and the
  four-phase rule.
- `Flow`: rush-hour multiplier, arrivals and departures.
- `Network`: secondary intersections, their offsets and their tags.
- `Advanced`: the advanced engine's state, tick, runs and handlers.
- `Simple`: the simple engine.
- `Dashboard`: the page's derived figures.

## Modelling choices

- **Outside inputs.** `Math.random()` draws are reals in `[0, 1)`, passed
  in. `Date.now()` is a natural number of milliseconds, passed in. All
  floors are exact (`.Floor` on reals).
- **Effect order.** Every decision in a tick reads the state from before
  the tick, as the interval closure does. Two pairs of functional
  updaters compose, each second one acting on the first one's result:
  - departures act on the post-arrival queues, with the old lights and flags;
  - the coordination pass acts on the secondaries after their arrivals.

  The metrics get two functional updates as well. One writes the
  processed tally and the per-minute rate, the other the wait and
  congestion figures. The fields are disjoint, so the two updates commute
  and their order does not matter.
- **Timing shapes.** The timing calculation returns either a bare number
  (`Phases.Timing.Even`) or a pair of greens (`Phases.Timing.Split`).
  - The consumer takes `cycleTime` as the cycle length for a bare number,
    and `ns + ew + 6` for a pair.
  - Fixed mode always builds the pair `(cycleTime/2, cycleTime/2)`. It can
    hold halves such as 17.5 for a 35-second cycle.
- **State layout.** The hook's separate state values are grouped into
  three records: `Advanced.Control` (emergency type, direction and
  countdown, crossing requests, pedestrian phase and countdown),
  `Advanced.Queues` (queues, history, chart samples, metrics) and the
  remaining fields of `Advanced.State`. The emergency and crossing
  handlers act on `Control` alone, as in the hook they set nothing else.
- **Weather impact.** The handler always sets the weather and its impact
  together. So the impact is derived from the weather
  (`Weather.Impact`) instead of being stored.
- **Slider bounds.** The configuration is not clamped by the engine. The
  sliders (`ControlPanel.tsx`) restrict cycle time to 30–120 in steps of
  5, and minimum green to 5–30. These bounds are preconditions
  (`Phases.ValidConfig`, `ValidCommand`).
- **Minimum green wins.** With a large minimum green, the adaptive split
  keeps both greens at or above `minGreen` and lets their sum exceed
  `cycleTime`. The code's `Math.max` on `ewTime` does this; the model
  follows the code (`Phases.GreenSplit`, `Phases.AdaptiveTiming`).
- **Emergency path.** An emergency preempts the lights only when both a
  vehicle type and a direction are set.
  - The emergency buttons (`EmergencyControl.tsx`) pass a type only. So
    on the page, the "Emergency Override" banner shows and the secondaries
    go all red, while the primary keeps cycling normally.
  - The type-plus-direction path is reachable only through the handler's
    two-argument form. Both paths are modelled.
- **Bare-number cycle.** Adaptive mode returns the bare number while fewer
  than five history samples exist, and whenever the recent load is zero.
  In that shape the cycle is `cycleTime` seconds. The four-phase rule would
  start the east–west yellow at position `cycleTime + 3`, and a full
  four-phase cycle would need `cycleTime + 6` seconds, so the position
  never reaches the east–west yellow. East–west green is followed directly
  by north–south green. `Phases.EvenSkipsEwYellow`
  states this behaviour of the code as written.
- **Re-timing mid-cycle.** The split is recomputed on every tick from the
  history, and the cycle position is `time % length` under the new split.
  A new history sample can therefore move the position across a phase
  boundary. `Phases.SplitPhaseStep` (phases advance one at a time) holds
  only while the history and the configuration stay fixed.
  `Phases.RetimingSkipsNsYellow` and `Advanced.RetimingSkipsYellow` give a
  case where north–south green is followed directly by east–west green.
  The case starts at second 360 with the 36 samples a run has taken by
  then, so a running simulation can reach it.
- **Secondary yellows.** The secondaries do not use the main cycle. Each
  runs a fixed `cycleTime + 6` schedule: NS green up to `cycleTime / 2`,
  three seconds of NS yellow, EW green up to `cycleTime`, then EW yellow
  for the remaining six seconds. So a secondary's EW yellow lasts six
  seconds, while the main intersection's lasts three
  (`Network.SecondarySchedule`, `Phases.EwYellowThreeSeconds`).

## Model

| member | source | states |
|---|---|---|
| Weather.Impact | src/hooks/useAdvancedTrafficSimulation.ts:99-106 | impact lies in (0.5, 1] and is 1 exactly for clear weather |
| Weather.NormalRate | src/hooks/useAdvancedTrafficSimulation.ts:185 | `floor(3 * impact)` is 3 for clear, 1 for snow, 2 for cloudy, rain and fog |
| Weather.NormalRateMonotone | src/hooks/useAdvancedTrafficSimulation.ts:185 | a weather with no smaller impact never discharges slower, and a faster discharge means a strictly larger impact |
| Window.Last | src/hooks/useAdvancedTrafficSimulation.ts:215 | `slice(-n)` is the suffix of length `min(n, |s|)` |
| Window.Push | src/hooks/useAdvancedTrafficSimulation.ts:267 | `[...slice(-k), x]` holds between 1 and k+1 entries, never more than one beyond the input, and ends with x |
| Window.PushKeepsNewest | src/hooks/useAdvancedTrafficSimulation.ts:267 | the result is the newest entries of the input followed by x; a buffer within the bound is only appended to |
| Window.PushBounded | src/hooks/useAdvancedTrafficSimulation.ts:267 | a buffer within k+1 stays within k+1; a full buffer drops exactly its oldest entry |
| Phases.LoadZeroIffEmpty | src/hooks/useAdvancedTrafficSimulation.ts:216-220 | the summed recent load is zero exactly when every sample is an empty intersection |
| Phases.Share | src/hooks/useAdvancedTrafficSimulation.ts:222-225 | `floor(cycleTime * ns / total)` is characterized by the floor inequalities and never exceeds the cycle |
| Phases.GreenSplit | src/hooks/useAdvancedTrafficSimulation.ts:225-226 | both greens are at least minGreen, they add up to at least the cycle, and to exactly the cycle iff the EW remainder meets minGreen; otherwise the EW green is exactly minGreen |
| Phases.GreenSplitProportional | src/hooks/useAdvancedTrafficSimulation.ts:222-225 | the NS green is the floor of the NS load share of the cycle unless raised to minGreen |
| Phases.AdaptiveTiming | src/hooks/useAdvancedTrafficSimulation.ts:212-229 | a bare half-cycle is returned iff adaptive mode is off, fewer than 5 samples exist or the last 10 samples carry no load; otherwise whole-second greens of at least minGreen that add up to the cycle, or exceed it with the EW green at exactly minGreen |
| Phases.FewSamplesEven | src/hooks/useAdvancedTrafficSimulation.ts:213 | with fewer than 5 samples the result is half the cycle |
| Phases.EngineTiming | src/hooks/useAdvancedTrafficSimulation.ts:296 | fixed mode gives the pair of equal halves; adaptive mode gives the adaptive controller's result, so a bare number only arises there |
| Phases.CycleLength | src/hooks/useAdvancedTrafficSimulation.ts:297 | the cycle is cycleTime for a bare number and ns + ew + 6 for a pair, always positive |
| Phases.FourPhase | src/hooks/useAdvancedTrafficSimulation.ts:315-327 | every phase of the four-phase rule keeps one axis red and the other moving |
| Phases.SelectPhase | src/hooks/useAdvancedTrafficSimulation.ts:300-328 | both timing shapes yield a phase with exactly one axis moving |
| Phases.NormalLights | src/hooks/useAdvancedTrafficSimulation.ts:296-328 | normal-operation lights never show conflicting greens, and never EW yellow under a bare number |
| Phases.NsYellowThreeSeconds | src/hooks/useAdvancedTrafficSimulation.ts:300-328 | under either timing shape the NS green is followed by exactly three seconds of NS yellow and then EW green |
| Phases.EwYellowThreeSeconds | src/hooks/useAdvancedTrafficSimulation.ts:297-328 | in a pair-shaped cycle the last three seconds are EW yellow, preceded by EW green and followed by NS green at the restart |
| Phases.FixedSixty | src/hooks/useAdvancedTrafficSimulation.ts:296-328 | the fixed 60-second configuration repeats every 66 s: 0–29 NS green, 30–32 NS yellow, 33–62 EW green, 63–65 EW yellow, each interval exactly |
| Phases.FourPhaseStep | src/hooks/useAdvancedTrafficSimulation.ts:315-327 | within a pair-shaped cycle the next second shows the same phase or the next one in order |
| Phases.SplitPhaseStep | src/hooks/useAdvancedTrafficSimulation.ts:296-328 | with pair timing, a fixed history and a fixed configuration, consecutive ticks keep the phase or advance it by one |
| Phases.RetimingSkipsNsYellow | src/hooks/useAdvancedTrafficSimulation.ts:212-328 | with the last ten samples at (40 NS, 20 EW) the split is (40, 20) and second 360 shows NS green; one more sample of (0 NS, 300 EW) re-times it to (25, 35) and second 361 shows EW green, skipping the NS yellow |
| Phases.EvenSkipsEwYellow | src/hooks/useAdvancedTrafficSimulation.ts:297-313 | with a bare number, EW green at the last second of the cycle is followed by NS green |
| Phases.NormalLightsPeriodic | src/hooks/useAdvancedTrafficSimulation.ts:297-298 | the lights repeat with the derived cycle length and start with NS green |
| Flow.HourOfDay | src/hooks/useAdvancedTrafficSimulation.ts:148 | the hour of day lies in [0, 24) |
| Flow.RushMultiplier | src/hooks/useAdvancedTrafficSimulation.ts:148-149 | the multiplier is 2 exactly in the windows 07:00–09:00 and 17:00–19:00 inclusive, else 1 |
| Flow.ArrivalStep | src/hooks/useAdvancedTrafficSimulation.ts:150 | the arrival term is below 3 × rush and below 3 × rush × impact |
| Flow.ArriveOne | src/hooks/useAdvancedTrafficSimulation.ts:153-156 | a queue falls by at most one, grows by at most term − 1, and is empty exactly when queue + term ≤ 1 |
| Flow.Arrive | src/hooks/useAdvancedTrafficSimulation.ts:152-157 | each approach applies its own term |
| Flow.Throughput | src/hooks/useAdvancedTrafficSimulation.ts:169-192 | departures never exceed the queue; only the route's approach discharges (≤ 5) under an emergency, none in a pedestrian phase, otherwise green approaches up to the weather rate |
| Flow.SimpleThroughput | src/hooks/useTrafficSimulation.ts:62-67 | green approaches discharge up to 3, others none |
| Flow.SimpleIsClearWeather | src/hooks/useTrafficSimulation.ts:62-67 | the simple discharge equals the advanced discharge in clear weather without overrides |
| Flow.Depart | src/hooks/useAdvancedTrafficSimulation.ts:194-207 | departures are removed per approach and vehicles are conserved in total |
| Flow.SecondaryArrive | src/hooks/useAdvancedTrafficSimulation.ts:160-163 | a secondary's count never grows and falls by at most one per tick |
| Network.LocalPosition | src/hooks/useAdvancedTrafficSimulation.ts:333-334 | the offset position lies inside the cycleTime + 6 cycle |
| Network.LocalPositionIsRemainder | src/hooks/useAdvancedTrafficSimulation.ts:333-334 | the offset position is (time + 20 × index) mod (cycleTime + 6) |
| Network.SecondaryLights | src/hooks/useAdvancedTrafficSimulation.ts:336-353 | secondary lights are safe, and all red exactly when an emergency type is set or a pedestrian phase runs |
| Network.SecondarySchedule | src/hooks/useAdvancedTrafficSimulation.ts:333-353 | a secondary without overrides shows NS green up to half the cycle, three seconds of NS yellow, EW green up to cycleTime, six seconds of EW yellow, then NS green again |
| Network.SecondaryOffsetAndPeriod | src/hooks/useAdvancedTrafficSimulation.ts:333-334 | intersection i runs intersection 0's schedule shifted by 20·i seconds, repeating every cycleTime + 6 |
| Network.SecondaryPhaseStep | src/hooks/useAdvancedTrafficSimulation.ts:339-353 | without an override consecutive seconds keep the phase or advance it by one |
| Network.Tag | src/hooks/useAdvancedTrafficSimulation.ts:359 | synchronized iff the green wave is on and the index is below 2; delayed iff otherwise at index 2 |
| Network.Coordinate | src/hooks/useAdvancedTrafficSimulation.ts:332-361 | the pass keeps id, name and count, sets every light and tag, and leaves all intersections safe |
| Network.ArriveAll | src/hooks/useAdvancedTrafficSimulation.ts:160-163 | only the vehicle counts change, each by 0 or −1 |
| Advanced.InitialSatisfiesInv | src/hooks/useAdvancedTrafficSimulation.ts:44-92 | the initial state satisfies the state invariant |
| Advanced.Forced | src/hooks/useAdvancedTrafficSimulation.ts:281-289 | the emergency lights show the route's axis green and the other axis red |
| Advanced.CountDown | src/hooks/useAdvancedTrafficSimulation.ts:238-260 | emergency and pedestrian countdowns step down, clear the override on the last second, admit a pedestrian phase only on a 30-second boundary without an emergency, and keep the override bookkeeping consistent; a running pedestrian phase loses one second and stays active iff seconds remain |
| Advanced.ArrivalTerm | src/hooks/useAdvancedTrafficSimulation.ts:147-150 | the one arrival term all four approaches share is below 3 × rush and below 3 × rush × impact |
| Advanced.Arrivals | src/hooks/useAdvancedTrafficSimulation.ts:147-157 | every approach applies the same shared, weather-scaled term; each falls by at most one and grows by at most 3 × rush − 2 |
| Advanced.Departures | src/hooks/useAdvancedTrafficSimulation.ts:167-192 | under a route only its approach discharges, min(queue, 5); in a pedestrian phase nothing; otherwise each green approach discharges min(queue, weather rate) and the others nothing |
| Advanced.NextLights | src/hooks/useAdvancedTrafficSimulation.ts:279-329 | the lights are safe: forced by a route, all red in a pedestrian phase, otherwise the normal cycle |
| Advanced.WaitTime | src/hooks/useAdvancedTrafficSimulation.ts:367 | the estimate is 2.5 × (2 − impact) s per waiting vehicle: zero iff nothing waits, at least 2.5 s per vehicle |
| Advanced.Congestion | src/hooks/useAdvancedTrafficSimulation.ts:368 | the index lies in [0, 100], is zero iff nothing waits, is 100 iff 5 × waiting reaches 100 × impact, and below the cap equals 5 × waiting / impact |
| Advanced.Departed | src/hooks/useAdvancedTrafficSimulation.ts:167-192 | against the post-arrival queues: min(queue, 5) on the route's approach and none elsewhere, none during a pedestrian phase, otherwise min(queue, weather rate) on green approaches; never more than arrived |
| Advanced.NextMetrics | src/hooks/useAdvancedTrafficSimulation.ts:194-200 | the processed tally grows by this tick's departures; vehicles per minute is six times them; wait and congestion are computed from the pre-tick queues and weather |
| Advanced.NextIntersections | src/hooks/useAdvancedTrafficSimulation.ts:159-361 | the secondaries keep their number, ids and names, each count falls by 0 or 1, each gets its offset schedule (all red under an emergency type or a pedestrian phase) and its green-wave tag, and all are safe |
| Advanced.NextCounts | src/hooks/useAdvancedTrafficSimulation.ts:194-207 | the queues lose exactly the departed vehicles in total, and approaches off an emergency route keep their post-arrival queues |
| Window.Sample | src/hooks/useAdvancedTrafficSimulation.ts:265-276 | on a sampling tick the buffer ends with the new sample and stays bounded; otherwise it is unchanged |
| Advanced.NextQueues | src/hooks/useAdvancedTrafficSimulation.ts:194-276 | vehicles are conserved against the processed tally, per-minute throughput is six times the tick's departures, nothing is processed in a pedestrian phase, and the history gets the pre-tick queues every 10 s within its bound |
| Advanced.Tick | src/hooks/useAdvancedTrafficSimulation.ts:234-370 | a tick advances the clock by one, conserves vehicles against the processed tally, obeys the light priority, samples the pre-tick queues every 10 s and steps the emergency countdown; a pedestrian-phase tick shows all red, processes no vehicle, takes one second off the phase, and on its last second ends the phase and clears the requests |
| Advanced.TickPreservesInv | src/hooks/useAdvancedTrafficSimulation.ts:234-370 | every tick preserves safe lights, consistent overrides, bounded buffers and safe secondaries |
| Advanced.Run | src/hooks/useAdvancedTrafficSimulation.ts:231-371 | a sequence of ticks keeps the invariant |
| Advanced.RunKeeps | src/hooks/useAdvancedTrafficSimulation.ts:231-371 | a running simulation stays running with the same configuration and number of secondaries, its clock advances by one per callback, and the processed tally never decreases |
| Advanced.EmergencyHolds | src/hooks/useAdvancedTrafficSimulation.ts:238-289 | during a directed emergency every tick shows the route's axis green with no pedestrian phase, and the last second clears it |
| Advanced.TriggerEmergency | src/hooks/useAdvancedTrafficSimulation.ts:109-128 | no type cancels, clearing the route and leaving the pedestrian phase alone; type plus direction starts a 30 s preemption and ends any pedestrian phase and its countdown; a type alone clears the route and leaves the countdowns and pedestrian phase as they were; the requests never change |
| Advanced.TriggerThenTick | src/hooks/useAdvancedTrafficSimulation.ts:279-289 | after a directed trigger the next tick shows the route's axis green |
| Advanced.Flip | src/hooks/useAdvancedTrafficSimulation.ts:134-137 | exactly the pressed approach's request flag is inverted |
| Advanced.TogglePedestrian | src/hooks/useAdvancedTrafficSimulation.ts:131-138 | a press flips only its own approach's request and is ignored while an emergency type is set |
| Advanced.ToggleTwice | src/hooks/useAdvancedTrafficSimulation.ts:131-138 | pressing the same button twice restores the state |
| Advanced.Reset | src/hooks/useAdvancedTrafficSimulation.ts:380-400 | reset stops the clock and clears queues, buffers, metrics, overrides and requests, sets NS red/EW green, and keeps configuration, weather, green wave and secondaries |
| Advanced.RetimingSkipsYellow | src/hooks/useAdvancedTrafficSimulation.ts:234-329 | from second 360 with 36 samples, the last ten at (40 NS, 20 EW), and queues of (0, 0, 150, 150), one tick shows NS green and the next EW green, with no NS yellow between |
| Advanced.ResetIdempotent | src/hooks/useAdvancedTrafficSimulation.ts:378-400 | resetting twice equals resetting once, and a reset simulation does not advance |
| Advanced.Apply | src/hooks/useAdvancedTrafficSimulation.ts:378-453 | the emergency and crossing buttons set the override part to the trigger and toggle results and change nothing else; reset gives the reset state; weather, green wave, run/stop and the sliders change only their own field; only reset touches the clock and queues |
| Advanced.ApplyPreservesInv | src/hooks/useAdvancedTrafficSimulation.ts:378-453 | every control keeps the state invariant |
| Simple.InitialSatisfiesInv | src/hooks/useTrafficSimulation.ts:19-44 | the initial simple state satisfies its invariant |
| Simple.Arrivals | src/hooks/useTrafficSimulation.ts:47-57 | each approach takes its own draw: max(0, queue + floor(draw × 3 × rush) − 1); so it falls by at most one and grows by at most 3 × rush − 2 |
| Simple.Departed | src/hooks/useTrafficSimulation.ts:60-67 | each green approach discharges min(post-arrival queue, 3), the others nothing |
| Simple.WaitTime | src/hooks/useTrafficSimulation.ts:165 | the estimate is 2.5 s per waiting vehicle, so zero iff nothing waits |
| Simple.Congestion | src/hooks/useTrafficSimulation.ts:166 | the index is 5 per vehicle, capped at 100 from 20 vehicles on |
| Simple.ClearWeatherMetrics | src/hooks/useTrafficSimulation.ts:165-166 | the simple wait and congestion equal the advanced formulas in clear weather |
| Simple.NextMetrics | src/hooks/useTrafficSimulation.ts:161-167 | the tally grows by the departures, per-minute is six times them, wait and congestion from the pre-tick queues |
| Simple.Tick | src/hooks/useTrafficSimulation.ts:111-169 | a tick conserves vehicles, discharges at most 3 per green approach, shows the normal cycle and samples every 10 s |
| Simple.Reset | src/hooks/useTrafficSimulation.ts:176-189 | reset stops and clears everything but the configuration |
| Simple.ResetIdempotent | src/hooks/useTrafficSimulation.ts:176-189 | resetting twice is resetting once; the initial state is a reset state |
| Simple.Apply | src/hooks/useTrafficSimulation.ts:174-210 | the controls keep the invariant and change only their own field; reset gives the reset state |
| Simple.AgreesWithAdvanced | src/hooks/useTrafficSimulation.ts:47-167 | in clear weather without overrides and with equal draws, a simple tick yields the advanced tick's queues, lights, history, processed tally, vehicles per minute, wait and congestion |
| Dashboard.Digits | src/pages/Index.tsx:57 | the numeral is a non-empty digit string without leading zero |
| Dashboard.ValueOfDigits | src/pages/Index.tsx:57 | reading the numeral back gives the number |
| Dashboard.TwoDigits | src/pages/Index.tsx:57 | `padStart(2, '0')` gives two digits denoting the seconds |
| Dashboard.FormatTime | src/pages/Index.tsx:54-58 | the label is digits, a colon and two digits whose values give back the seconds as minutes × 60 + seconds, seconds below 60; the minutes are not padded, so a label longer than `m:ss` has no leading zero |
| Dashboard.FormatTimeInjective | src/pages/Index.tsx:54-58 | different clock values never share a label |
| Dashboard.CongestionVariant | src/pages/Index.tsx:60-64 | success below 30, warning from 30 below 70, danger from 70 |
| Dashboard.CongestionVariantMonotone | src/pages/Index.tsx:60-64 | more congestion never shows a milder badge |
| Dashboard.SystemStatus | src/pages/Index.tsx:66-71 | the banner is chosen by priority emergency type, pedestrian phase, adaptive, fixed |
| Dashboard.StatusVariant | src/pages/Index.tsx:66-71 | each banner has its own badge: danger for the emergency, warning for the pedestrian phase, success for adaptive, the default look for fixed |
| Dashboard.StatusMatchesLights | src/pages/Index.tsx:66-71 | the banner agrees with the next tick's lights; a directed emergency always shows the emergency banner |
| Dashboard.PedestrianRequestCount | src/pages/Index.tsx:231 | the counter lies in 0..4, is 0 iff no request is open and 4 iff all are |
| Dashboard.ToggleMovesCount | src/pages/Index.tsx:231 | a button press moves the counter by exactly one unless an emergency type is set |
| Dashboard.SyncCount | src/pages/Index.tsx:237 | the synchronized counter never exceeds the number of intersections |
| Dashboard.SyncCountOfTags | src/pages/Index.tsx:237 | with the coordination tags set, the counter is min(2, n) with the green wave on and 0 with it off |
| Dashboard.SyncCountAfterCoordinate | src/pages/Index.tsx:237 | after a coordination pass the counter is min(2, n) with the green wave on and 0 with it off |

## Left out

- React plumbing is not modelled: hooks, effect re-subscription, StrictMode double invocation and the JSX components. Each tick is one pure function of the pre-tick state.
- `Math.random()` and `Date.now()` are parameters of the tick, not modelled sources.
- The chart sample's clock-time label (`toLocaleTimeString`) is not modelled; the other fields of a chart sample are.
- The `directionData` colours and the `toFixed` display rounding are left out; they only affect presentation.
- Floating-point rounding is not modelled. The model uses exact rationals where JavaScript uses IEEE-754 doubles, so `floor(cycleTime * nsRatio)` and `floor(random * 3 * rush * impact)` may differ from the double result at exact boundaries.
- The stored `weatherImpact` is not a separate field. It is derived from the weather, because the handler always sets both together.
- The "Emergency Events" card (`1 Active`/`0`) is not modelled; it only shows whether an emergency type is set.
- The other pages and the chart components are not part of this model.
- Advanced.Run: its contract states only the invariant. Clock, flag, configuration and tally facts are in `Advanced.RunKeeps`.
- Advanced.Tick: the pedestrian phase's guarantees (all red, no vehicle processed, one second off per tick, requests cleared on the last second) are stated per tick. No lemma carries them over a whole run of ticks the way `Advanced.EmergencyHolds` does for an emergency, because the verifier does not finish such a proof within its resource bound.
- Advanced.RunKeeps: covers running simulations only. A stopped run is the identity by the definition of `Advanced.Run`; `Advanced.ResetIdempotent` states it for reset states.

=== FILE: advanced.dfy ===
/** The advanced engine (useAdvancedTrafficSimulation.ts) as one immutable
    state record, a pure tick and pure command handlers. Every decision in a
    tick reads the pre-tick state, except where two functional updates of
    one value compose: departures act on the post-arrival queues (with the
    old lights) and the coordination pass on the post-arrival secondaries.
    The two metrics updates write disjoint fields (tally and per-minute
    rate; wait and congestion), so they commute. */
module Advanced {
  import opened Traffic
  import Weather
  import Window
  import Phases
  import Flow
  import Network

  datatype VehicleType = Ambulance | FireTruck | Police

  /** Open pedestrian crossing requests, one flag per approach. */
  datatype Requests = Requests(north: bool, south: bool, east: bool, west: bool)

  const NoRequests := Requests(false, false, false, false)

  function Requested(r: Requests, d: Direction): bool {
    match d
    case North => r.north
    case South => r.south
    case East => r.east
    case West => r.west
  }

  predicate AnyRequest(r: Requests) {
    r.north || r.south || r.east || r.west
  }

  /** The override part of the state: the emergency type, its direction and
      countdown, the crossing requests and the pedestrian phase with its
      countdown. The emergency and crossing buttons touch nothing else. */
  datatype Control = Control(
    emergency: Option<VehicleType>,
    route: Option<Direction>,
    emergencyLeft: nat,
    requests: Requests,
    pedestrianActive: bool,
    pedestrianLeft: nat)

  /** No emergency, no request, no pedestrian phase. */
  const Idle := Control(None, None, 0, NoRequests, false, 0)

  datatype Metrics = Metrics(avgWaitTime: real, vehiclesPerMinute: nat,
                             congestionIndex: real, totalProcessed: nat)

  const ZeroMetrics := Metrics(0.0, 0, 0.0, 0)

  /** A chart sample; its clock-time label is not modelled. */
  datatype DataPoint = DataPoint(vehicles: nat, waitTime: real, congestion: real)

  /** The main intersection's queues, the sampled history and chart, and the metrics. */
  datatype Queues = Queues(
    counts: Counts,
    history: seq<Counts>,
    dataPoints: seq<DataPoint>,
    metrics: Metrics)

  const EmptyQueues := Queues(NoVehicles, [], [], ZeroMetrics)

  datatype State = State(
    running: bool,
    time: nat,
    config: Phases.Config,
    weather: Weather.Condition,
    greenWave: bool,
    lights: Lights,
    control: Control,
    intersections: seq<Network.Intersection>,
    queues: Queues)

  const EmergencyDuration: nat := 30
  const PedestrianDuration: nat := 15
  /** A pedestrian phase may only start on ticks that are multiples of this. */
  const PedestrianWindow: nat := 30
  /** History and chart samples are taken on ticks that are multiples of this. */
  const SamplePeriod: nat := 10
  const HistoryKeep: nat := 50
  const ChartKeep: nat := 20

  /** The state the hook starts in. */
  const Initial := State(
    true, 0, Phases.Config(true, 60, 10), Weather.Clear, true, Lights(Red, Green), Idle,
    Network.InitialIntersections, Queues(Counts(8, 6, 10, 7), [], [], ZeroMetrics))

  /** The override bookkeeping is consistent: a pedestrian phase runs
      exactly while its countdown is positive, an emergency countdown
      implies a type, and a set direction implies a running countdown and
      no pedestrian phase. */
  predicate Overrides(c: Control) {
    && (c.pedestrianActive <==> c.pedestrianLeft > 0)
    && c.pedestrianLeft <= PedestrianDuration
    && c.emergencyLeft <= EmergencyDuration
    && (c.emergencyLeft > 0 ==> c.emergency.Some?)
    && (c.route.Some? ==> c.emergency.Some? && c.emergencyLeft > 0 && !c.pedestrianActive)
  }

  /** The sample buffers stay within their windows. */
  predicate Bounded(q: Queues) {
    |q.history| <= HistoryKeep + 1 && |q.dataPoints| <= ChartKeep + 1
  }

  /** What every reachable state satisfies. */
  predicate Inv(s: State) {
    && Phases.ValidConfig(s.config)
    && Safe(s.lights)
    && Overrides(s.control)
    && Bounded(s.queues)
    && Network.AllSafe(s.intersections)
  }

  lemma InitialSatisfiesInv()
    ensures Inv(Initial)
  {
  }

  // ---------------------------------------------------------------------
  // One tick
  // ---------------------------------------------------------------------

  /** Inputs a tick takes from the outside world: `Date.now()`, the draw
      shared by the four approaches and one draw per secondary intersection. */
  datatype Draws = Draws(nowMs: nat, arrival: real, secondary: seq<real>)

  predicate ValidDraws(s: State, d: Draws) {
    Flow.IsDraw(d.arrival) && Network.DrawsFor(|s.intersections|, d.secondary)
  }

  /** The emergency preempts only when both a type and a direction are set. */
  function Route(c: Control): Option<Direction> {
    if c.emergency.Some? && c.route.Some? then c.route else None
  }

  /** Emergency lights: the route's axis green, the other red. */
  function Forced(d: Direction): (l: Lights)
    ensures OneAxisMoving(l) && l.Of(d) == Green
  {
    if AxisOf(d) == NorthSouth then Lights(Green, Red) else Lights(Red, Green)
  }

  /** A pedestrian phase starts when a request is open, no phase runs, no
      emergency type is set and the clock is on a 30-second boundary. */
  predicate Admits(c: Control, time: nat) {
    AnyRequest(c.requests) && !c.pedestrianActive && c.emergency.None? && time % PedestrianWindow == 0
  }

  /** The countdown part of a tick: emergency and pedestrian countdowns and
      pedestrian admission, all decided on the pre-tick values. */
  function CountDown(c: Control, time: nat): (r: Control)
    ensures r.emergencyLeft == Max(0, c.emergencyLeft - 1)
    ensures c.emergencyLeft == 1 ==> r.emergency.None? && r.route.None?
    ensures c.emergencyLeft != 1 ==> r.emergency == c.emergency && r.route == c.route
    ensures Admits(c, time) ==> r.pedestrianActive && r.pedestrianLeft == PedestrianDuration
    ensures !c.pedestrianActive ==> (r.pedestrianActive <==> Admits(c, time))
    ensures !Admits(c, time) ==> r.pedestrianLeft == Max(0, c.pedestrianLeft - 1)
    ensures c.pedestrianLeft == 1 ==> r.requests == NoRequests && (r.pedestrianActive <==> Admits(c, time))
    ensures c.pedestrianLeft != 1 ==> r.requests == c.requests
    ensures c.pedestrianActive && c.pedestrianLeft > 0 ==>
              r.pedestrianLeft == c.pedestrianLeft - 1 && (r.pedestrianActive <==> c.pedestrianLeft > 1)
    ensures Overrides(c) ==> Overrides(r)
  {
    var endEmergency := c.emergencyLeft == 1;
    var endCrossing := c.pedestrianLeft == 1;
    var admit := Admits(c, time);
    Control(
      if endEmergency then None else c.emergency,
      if endEmergency then None else c.route,
      if c.emergencyLeft > 0 then c.emergencyLeft - 1 else c.emergencyLeft,
      if endCrossing then NoRequests else c.requests,
      if admit then true else if endCrossing then false else c.pedestrianActive,
      if admit then PedestrianDuration
      else if c.pedestrianLeft > 0 then c.pedestrianLeft - 1 else c.pedestrianLeft)
  }

  /** The arrival term `floor(random * 3 * rush * impact)` of this tick,
      drawn once and shared by the four approaches. */
  function ArrivalTerm(s: State, d: Draws): (k: nat)
    requires ValidDraws(s, d)
    ensures k < 3 * Flow.RushMultiplier(d.nowMs)
    ensures (k as real) < 3.0 * (Flow.RushMultiplier(d.nowMs) as real) * Weather.Impact(s.weather)
  {
    Flow.ArrivalStep(d.arrival, Flow.RushMultiplier(d.nowMs), Weather.Impact(s.weather))
  }

  /** Queues after this tick's arrivals: every approach adds the same term,
      less one, floored at zero. */
  function Arrivals(s: State, d: Draws): (c: Counts)
    requires ValidDraws(s, d)
    ensures forall dir :: Get(c, dir) == Flow.ArriveOne(Get(s.queues.counts, dir), ArrivalTerm(s, d))
    ensures forall dir :: Get(c, dir) + 1 >= Get(s.queues.counts, dir)
    ensures forall dir :: Get(c, dir) <= Get(s.queues.counts, dir) + 3 * Flow.RushMultiplier(d.nowMs) - 2
  {
    var k := ArrivalTerm(s, d);
    Flow.Arrive(s.queues.counts, k, k, k, k)
  }

  /** Departures of this tick, from the post-arrival queues and the old
      lights and flags: only the route's approach, at up to 5, under an
      emergency route; none in a pedestrian phase; otherwise each green
      approach at up to the weather's normal rate. */
  function Departures(s: State, arrived: Counts): (thr: Counts)
    ensures forall d :: Get(thr, d) <= Get(arrived, d)
    ensures Route(s.control).Some? ==>
              forall d :: Get(thr, d) == (if d == Route(s.control).value then Min(Get(arrived, d), Flow.EmergencyRate) else 0)
    ensures Route(s.control).None? && s.control.pedestrianActive ==> thr == NoVehicles
    ensures Route(s.control).None? && !s.control.pedestrianActive ==>
              forall d :: Get(thr, d) == (if s.lights.Of(d) == Green then Min(Get(arrived, d), Weather.NormalRate(s.weather)) else 0)
  {
    Flow.Throughput(arrived, Route(s.control), s.control.pedestrianActive, s.lights, s.weather)
  }

  /** Light assignment by strict priority: emergency route, pedestrian phase, normal cycle. */
  function NextLights(s: State): (l: Lights)
    requires Phases.ValidConfig(s.config)
    ensures Safe(l)
    ensures Route(s.control).Some? ==> l == Forced(Route(s.control).value)
    ensures Route(s.control).None? && s.control.pedestrianActive ==> l == Lights(Red, Red)
    ensures Route(s.control).None? && !s.control.pedestrianActive ==>
              OneAxisMoving(l) && l == Phases.NormalLights(s.time, s.config, s.queues.history)
  {
    match Route(s.control)
    case Some(d) => Forced(d)
    case None =>
      if s.control.pedestrianActive then Lights(Red, Red)
      else Phases.NormalLights(s.time, s.config, s.queues.history)
  }

  /** Estimated wait: `2.5 * (2 - impact)` seconds per waiting vehicle. */
  function WaitTime(waiting: nat, w: Weather.Condition): (t: real)
    ensures t == 2.5 * (2.0 - Weather.Impact(w)) * waiting as real
    ensures t == 0.0 <==> waiting == 0
    ensures t >= 2.5 * waiting as real
  {
    if waiting > 0 then waiting as real * 2.5 * (2.0 - Weather.Impact(w)) else 0.0
  }

  /** Congestion index `min(100, 5 * waiting / impact)`. */
  function Congestion(waiting: nat, w: Weather.Condition): (c: real)
    ensures 0.0 <= c <= 100.0
    ensures c == 0.0 <==> waiting == 0
    ensures c == 100.0 <==> 5.0 * waiting as real >= 100.0 * Weather.Impact(w)
    ensures c < 100.0 ==> c * Weather.Impact(w) == 5.0 * waiting as real
  {
    var x := waiting as real * 5.0 / Weather.Impact(w);
    if x <= 100.0 then x else 100.0
  }

  /** This tick's departures, taken from the post-arrival queues. */
  function Departed(s: State, d: Draws): (thr: Counts)
    requires ValidDraws(s, d)
    ensures forall dir :: Get(thr, dir) <= Get(Arrivals(s, d), dir)
    ensures Route(s.control).Some? ==>
              forall dir :: Get(thr, dir)
                            == (if dir == Route(s.control).value then Min(Get(Arrivals(s, d), dir), Flow.EmergencyRate) else 0)
    ensures Route(s.control).None? && s.control.pedestrianActive ==> Total(thr) == 0
    ensures Route(s.control).None? && !s.control.pedestrianActive ==>
              forall dir :: Get(thr, dir)
                            == (if s.lights.Of(dir) == Green then Min(Get(Arrivals(s, d), dir), Weather.NormalRate(s.weather)) else 0)
  {
    Departures(s, Arrivals(s, d))
  }

  /** Metrics after a tick: wait time and congestion from the pre-tick
      queues, throughput from this tick's departures. */
  function NextMetrics(s: State, d: Draws): (m: Metrics)
    requires ValidDraws(s, d)
    ensures m.totalProcessed == s.queues.metrics.totalProcessed + Total(Departed(s, d))
    ensures m.vehiclesPerMinute == 6 * Total(Departed(s, d))
    ensures m.avgWaitTime == WaitTime(Total(s.queues.counts), s.weather)
    ensures m.congestionIndex == Congestion(Total(s.queues.counts), s.weather)
  {
    var waiting := Total(s.queues.counts);
    var processed := Total(Departed(s, d));
    Metrics(WaitTime(waiting, s.weather), 6 * processed,
            Congestion(waiting, s.weather), s.queues.metrics.totalProcessed + processed)
  }

  /** The secondaries after their arrivals and the coordination pass: each
      keeps its id and name, loses at most one vehicle and gains none, and
      shows its offset schedule at the pre-tick time (all red under any
      emergency type or a pedestrian phase) with its coordination tag. */
  function NextIntersections(s: State, d: Draws): (xs: seq<Network.Intersection>)
    requires Phases.ValidConfig(s.config) && ValidDraws(s, d)
    ensures |xs| == |s.intersections| && Network.AllSafe(xs)
    ensures forall i :: 0 <= i < |xs| ==>
              xs[i].id == s.intersections[i].id && xs[i].name == s.intersections[i].name
              && xs[i].vehicleCount <= s.intersections[i].vehicleCount
              && xs[i].vehicleCount + 1 >= s.intersections[i].vehicleCount
    ensures forall i :: 0 <= i < |xs| ==>
              xs[i].lights == Network.SecondaryLights(s.time, i, s.config.cycleTime as nat,
                                                      s.control.emergency.Some?, s.control.pedestrianActive)
              && xs[i].coordination == Network.Tag(i, s.greenWave)
  {
    var arrived := Network.ArriveAll(s.intersections, d.secondary, Weather.Impact(s.weather));
    assert forall i :: 0 <= i < |arrived| ==>
             arrived[i].id == s.intersections[i].id && arrived[i].name == s.intersections[i].name;
    Network.Coordinate(arrived, s.time, s.config.cycleTime as nat,
                       s.control.emergency.Some?, s.control.pedestrianActive, s.greenWave)
  }

  /** Queues after this tick's arrivals and departures. */
  function NextCounts(s: State, d: Draws): (c: Counts)
    requires ValidDraws(s, d)
    ensures Total(c) + Total(Departed(s, d)) == Total(Arrivals(s, d))
    ensures Route(s.control).Some? ==>
              forall dir :: dir != Route(s.control).value ==> Get(c, dir) == Get(Arrivals(s, d), dir)
  {
    Flow.Depart(Arrivals(s, d), Departed(s, d))
  }

  /** Queues, samples and metrics after a tick. Vehicles are conserved:
      what departs is added to the processed tally. */
  function NextQueues(s: State, d: Draws): (q: Queues)
    requires ValidDraws(s, d)
    ensures Bounded(s.queues) ==> Bounded(q)
    ensures q.metrics.totalProcessed + Total(q.counts) == s.queues.metrics.totalProcessed + Total(Arrivals(s, d))
    ensures q.metrics.totalProcessed >= s.queues.metrics.totalProcessed
    ensures q.metrics.vehiclesPerMinute == 6 * (q.metrics.totalProcessed - s.queues.metrics.totalProcessed)
    ensures Route(s.control).Some? ==>
              forall dir :: dir != Route(s.control).value ==> Get(q.counts, dir) == Get(Arrivals(s, d), dir)
    ensures Route(s.control).None? && s.control.pedestrianActive ==>
              q.metrics.totalProcessed == s.queues.metrics.totalProcessed
    ensures s.time % SamplePeriod == 0 ==> 1 <= |q.history| && q.history[|q.history| - 1] == s.queues.counts
    ensures s.time % SamplePeriod != 0 ==> q.history == s.queues.history
  {
    var sample := s.time % SamplePeriod == 0;
    var q0 := s.queues;
    Queues(NextCounts(s, d),
           Window.Sample(sample, q0.history, q0.counts, HistoryKeep),
           Window.Sample(sample, q0.dataPoints,
                  DataPoint(Total(q0.counts), q0.metrics.avgWaitTime, q0.metrics.congestionIndex), ChartKeep),
           NextMetrics(s, d))
  }

  /** One second of the simulation. */
  function Tick(s: State, d: Draws): (r: State)
    requires Phases.ValidConfig(s.config) && ValidDraws(s, d)
    ensures r.time == s.time + 1
    ensures r.running == s.running && r.config == s.config && r.weather == s.weather && r.greenWave == s.greenWave
    ensures |r.intersections| == |s.intersections|
    ensures r.queues.metrics.totalProcessed + Total(r.queues.counts)
            == s.queues.metrics.totalProcessed + Total(Arrivals(s, d))
    ensures r.queues.metrics.totalProcessed >= s.queues.metrics.totalProcessed
    ensures r.queues.metrics.vehiclesPerMinute
            == 6 * (r.queues.metrics.totalProcessed - s.queues.metrics.totalProcessed)
    ensures Route(s.control).Some? ==> r.lights == Forced(Route(s.control).value)
    ensures Route(s.control).Some? ==>
              forall dir :: dir != Route(s.control).value ==> Get(r.queues.counts, dir) == Get(Arrivals(s, d), dir)
    ensures Route(s.control).None? && s.control.pedestrianActive ==>
              r.lights == Lights(Red, Red) && r.queues.metrics.totalProcessed == s.queues.metrics.totalProcessed
    ensures Route(s.control).None? && !s.control.pedestrianActive ==>
              r.lights == Phases.NormalLights(s.time, s.config, s.queues.history)
    ensures s.time % SamplePeriod == 0 ==>
              1 <= |r.queues.history| && r.queues.history[|r.queues.history| - 1] == s.queues.counts
    ensures s.time % SamplePeriod != 0 ==> r.queues.history == s.queues.history
    ensures r.control.emergencyLeft == Max(0, s.control.emergencyLeft - 1)
    ensures s.control.emergencyLeft == 1 ==> r.control.emergency.None? && r.control.route.None?
    ensures s.control.emergencyLeft != 1 ==>
              r.control.emergency == s.control.emergency && r.control.route == s.control.route
    ensures !s.control.pedestrianActive ==> (r.control.pedestrianActive <==> Admits(s.control, s.time))
    ensures s.control.pedestrianActive && s.control.pedestrianLeft > 0 ==>
              r.control.pedestrianLeft == s.control.pedestrianLeft - 1
              && (r.control.pedestrianActive <==> s.control.pedestrianLeft > 1)
    ensures s.control.pedestrianLeft == 1 ==> r.control.requests == NoRequests
  {
    s.(time := s.time + 1,
       control := CountDown(s.control, s.time),
       queues := NextQueues(s, d),
       lights := NextLights(s),
       intersections := NextIntersections(s, d))
  }

  /** Every tick keeps the state invariant. */
  lemma TickPreservesInv(s: State, d: Draws)
    requires Inv(s) && ValidDraws(s, d)
    ensures Inv(Tick(s, d))
  {
    var r := Tick(s, d);
    assert r.control == CountDown(s.control, s.time);
    assert r.queues == NextQueues(s, d);
    assert r.lights == NextLights(s);
    assert r.intersections == NextIntersections(s, d);
  }

  // ---------------------------------------------------------------------
  // Running the clock
  // ---------------------------------------------------------------------

  /** The split is recomputed on every tick, so the sample a tick appends
      re-times the cycle under way. At second 360 a run has sampled the
      queues 36 times; with the last ten samples at 40 NS and 20 EW
      vehicles the NS axis is green. The tick samples queues heavy on EW,
      and the next tick shows EW green, with no NS yellow in between. */
  lemma RetimingSkipsYellow(s: State, d1: Draws, d2: Draws)
    requires && s.time == 360 && s.config == Phases.Config(true, 60, 10) && s.control == Idle
             && s.queues.counts == Counts(0, 0, 150, 150) && |s.queues.history| == 36
    requires forall i :: 26 <= i < 36 ==> s.queues.history[i] == Counts(20, 20, 10, 10)
    requires ValidDraws(s, d1) && ValidDraws(s, d2)
    ensures Tick(s, d1).lights == Lights(Green, Red)
    ensures Tick(Tick(s, d1), d2).lights == Lights(Red, Green)
  {
    Phases.RetimingSkipsNsYellow(s.queues.history);
    var r := Tick(s, d1);
    assert r.queues.history == s.queues.history + [s.queues.counts] by {
      assert r.queues == NextQueues(s, d1);
    }
    assert r.control == CountDown(Idle, 360);
    assert Route(r.control).None? && !r.control.pedestrianActive;
    assert Tick(r, d2).lights == Phases.NormalLights(361, r.config, r.queues.history);
  }

  /** Draws for `n` secondaries on every tick of a run. */
  predicate DrawsOk(n: nat, ds: seq<Draws>) {
    forall i :: 0 <= i < |ds| ==> Flow.IsDraw(ds[i].arrival) && Network.DrawsFor(n, ds[i].secondary)
  }

  /** Dropping the first tick's draws keeps the rest valid. */
  lemma DrawsOkTail(n: nat, ds: seq<Draws>)
    requires DrawsOk(n, ds) && |ds| > 0
    ensures Flow.IsDraw(ds[0].arrival) && Network.DrawsFor(n, ds[0].secondary)
    ensures DrawsOk(n, ds[1..])
  {
    forall i | 0 <= i < |ds| - 1
      ensures Flow.IsDraw(ds[1..][i].arrival) && Network.DrawsFor(n, ds[1..][i].secondary)
    {
      assert ds[1..][i] == ds[i + 1];
    }
  }

  /** Successive interval callbacks; while the simulation is stopped the
      interval is not installed and nothing changes. */
  function Run(s: State, ds: seq<Draws>): (r: State)
    requires Inv(s) && DrawsOk(|s.intersections|, ds)
    ensures Inv(r)
    decreases |ds|
  {
    if |ds| == 0 || !s.running then s
    else
      DrawsOkTail(|s.intersections|, ds);
      TickPreservesInv(s, ds[0]);
      Run(Tick(s, ds[0]), ds[1..])
  }

  /** A running simulation stays running with the same configuration, its
      clock advances by one per callback, and the processed tally never
      drops. */
  lemma {:induction false} RunKeeps(s: State, ds: seq<Draws>)
    requires Inv(s) && DrawsOk(|s.intersections|, ds) && s.running
    ensures var r := Run(s, ds);
            && r.running && r.config == s.config
            && |r.intersections| == |s.intersections|
            && r.time == s.time + |ds|
            && r.queues.metrics.totalProcessed >= s.queues.metrics.totalProcessed
    decreases |ds|
  {
    if |ds| > 0 {
      DrawsOkTail(|s.intersections|, ds);
      TickPreservesInv(s, ds[0]);
      var t := Tick(s, ds[0]);
      assert Run(s, ds) == Run(t, ds[1..]);
      RunKeeps(t, ds[1..]);
    }
  }

  /** While an emergency with a direction counts down, every tick shows
      that direction's axis green and no pedestrian phase can start; the
      tick that spends the last second clears the emergency. */
  lemma {:induction false} EmergencyHolds(s: State, ds: seq<Draws>, dir: Direction)
    requires Inv(s) && s.running && Route(s.control) == Some(dir)
    requires DrawsOk(|s.intersections|, ds) && 1 <= |ds| <= s.control.emergencyLeft
    ensures var r := Run(s, ds);
            && r.lights == Forced(dir)
            && r.control.emergencyLeft == s.control.emergencyLeft - |ds|
            && !r.control.pedestrianActive
            && (r.control.emergencyLeft > 0 ==> Route(r.control) == Some(dir))
            && (r.control.emergencyLeft == 0 ==> r.control.emergency.None? && r.control.route.None?)
    decreases |ds|
  {
    DrawsOkTail(|s.intersections|, ds);
    TickPreservesInv(s, ds[0]);
    var t := Tick(s, ds[0]);
    assert Run(s, ds) == Run(t, ds[1..]);
    if |ds| > 1 {
      assert Route(t.control) == Some(dir);
      EmergencyHolds(t, ds[1..], dir);
    } else {
      assert Run(t, ds[1..]) == t;
    }
  }

  // ---------------------------------------------------------------------
  // Handlers
  // ---------------------------------------------------------------------

  /** The emergency button: no type cancels, a type with a direction
      starts a 30-second preemption and ends any pedestrian phase, a type
      alone is recorded and waits for a direction. Requests stay. */
  function TriggerEmergency(c: Control, kind: Option<VehicleType>, dir: Option<Direction>): (r: Control)
    ensures Overrides(c) ==> Overrides(r)
    ensures r.emergency == kind
    ensures Route(r) == (if kind.Some? then dir else None)
    ensures kind.None? ==> r.emergencyLeft == 0
    ensures kind.Some? && dir.Some? ==> r.emergencyLeft == EmergencyDuration && !r.pedestrianActive
    ensures kind.None? ==> r.route.None? && r.pedestrianActive == c.pedestrianActive && r.pedestrianLeft == c.pedestrianLeft
    ensures kind.Some? && dir.Some? ==> r.pedestrianLeft == 0
    ensures kind.Some? && dir.None? ==> r.route.None? && r.pedestrianLeft == c.pedestrianLeft
    ensures kind.Some? && dir.None? ==> r.emergencyLeft == c.emergencyLeft && r.pedestrianActive == c.pedestrianActive
    ensures r.(emergency := c.emergency, route := c.route, emergencyLeft := c.emergencyLeft,
               pedestrianActive := c.pedestrianActive, pedestrianLeft := c.pedestrianLeft) == c
  {
    match kind
    case None => c.(emergency := None, route := None, emergencyLeft := 0)
    case Some(k) =>
      if dir.Some? then
        c.(emergency := kind, route := dir, emergencyLeft := EmergencyDuration,
           pedestrianActive := false, pedestrianLeft := 0)
      else c.(emergency := kind, route := None)
  }

  /** Once a type and a direction are set on a running simulation, the next
      tick shows that direction's axis green whatever else is pending. */
  lemma TriggerThenTick(s: State, kind: VehicleType, dir: Direction, d: Draws)
    requires Inv(s) && ValidDraws(s, d)
    ensures Tick(s.(control := TriggerEmergency(s.control, Some(kind), Some(dir))), d).lights == Forced(dir)
  {
    var t := s.(control := TriggerEmergency(s.control, Some(kind), Some(dir)));
    assert Route(t.control) == Some(dir);
  }

  /** The request flags with one approach's flag flipped. */
  function Flip(q: Requests, d: Direction): (r: Requests)
    ensures Requested(r, d) == !Requested(q, d)
    ensures forall e :: e != d ==> Requested(r, e) == Requested(q, e)
  {
    match d
    case North => q.(north := !q.north)
    case South => q.(south := !q.south)
    case East => q.(east := !q.east)
    case West => q.(west := !q.west)
  }

  /** A crossing button flips that approach's request, unless an emergency
      type is set, in which case it is ignored. */
  function TogglePedestrian(c: Control, d: Direction): (r: Control)
    ensures Overrides(c) ==> Overrides(r)
    ensures c.emergency.Some? ==> r == c
    ensures c.emergency.None? ==> Requested(r.requests, d) == !Requested(c.requests, d)
    ensures forall e :: e != d ==> Requested(r.requests, e) == Requested(c.requests, e)
    ensures r.(requests := c.requests) == c
  {
    if c.emergency.Some? then c else c.(requests := Flip(c.requests, d))
  }

  /** Pressing the same crossing button twice leaves the state as it was. */
  lemma {:induction false} ToggleTwice(c: Control, d: Direction)
    ensures TogglePedestrian(TogglePedestrian(c, d), d) == c
  {
    var t := TogglePedestrian(c, d);
    var u := TogglePedestrian(t, d);
    if c.emergency.None? {
      assert t.emergency.None?;
      assert u.requests == c.requests by {
        assert forall e :: Requested(u.requests, e) == Requested(c.requests, e);
        assert u.requests.north == Requested(u.requests, North);
        assert u.requests.south == Requested(u.requests, South);
        assert u.requests.east == Requested(u.requests, East);
        assert u.requests.west == Requested(u.requests, West);
      }
    }
  }

  /** The reset button: stops the clock and clears queues, history, chart,
      metrics, overrides and requests; sets the lights to NS red, EW green.
      Configuration, weather, the green wave and the secondaries stay. */
  function Reset(s: State): (r: State)
    ensures !r.running && r.time == 0 && r.lights == Lights(Red, Green)
    ensures r.queues.counts == NoVehicles && r.queues.metrics == ZeroMetrics
    ensures r.queues.history == [] && r.queues.dataPoints == []
    ensures r.control.emergency.None? && r.control.route.None? && r.control.emergencyLeft == 0
    ensures !r.control.pedestrianActive && r.control.pedestrianLeft == 0 && !AnyRequest(r.control.requests)
    ensures r.config == s.config && r.weather == s.weather && r.greenWave == s.greenWave
    ensures r.intersections == s.intersections
    ensures Phases.ValidConfig(s.config) && Network.AllSafe(s.intersections) ==> Inv(r)
  {
    s.(running := false, time := 0, lights := Lights(Red, Green), control := Idle, queues := EmptyQueues)
  }

  /** Resetting twice is resetting once, and a reset simulation stands still. */
  lemma ResetIdempotent(s: State, ds: seq<Draws>)
    requires Inv(s) && DrawsOk(|s.intersections|, ds)
    ensures Reset(Reset(s)) == Reset(s)
    ensures Run(Reset(s), ds) == Reset(s)
  {
  }

  /** The remaining controls of the dashboard. */
  datatype Command =
    | Emergency(kind: Option<VehicleType>, dir: Option<Direction>)
    | Crossing(approach: Direction)
    | SetWeather(weather: Weather.Condition)
    | SetGreenWave(on: bool)
    | ToggleRunning
    | ResetAll
    | SetAdaptive(on: bool)
    | SetCycleTime(seconds: int)
    | SetMinGreen(seconds: int)

  /** Slider values the control panel can produce. */
  predicate ValidCommand(c: Command) {
    match c
    case SetCycleTime(v) => Phases.ValidCycleTime(v)
    case SetMinGreen(v) => Phases.ValidMinGreen(v)
    case _ => true
  }

  function Apply(s: State, c: Command): (r: State)
    requires ValidCommand(c)
    ensures c.Emergency? || c.Crossing? ==> r.(control := s.control) == s
    ensures c.Emergency? ==> r.control == TriggerEmergency(s.control, c.kind, c.dir)
    ensures c.Crossing? ==> r.control == TogglePedestrian(s.control, c.approach)
    ensures c.ResetAll? ==> r == Reset(s)
    ensures c.SetWeather? ==> r == s.(weather := c.weather)
    ensures c.ToggleRunning? ==> r == s.(running := !s.running)
    ensures c.SetGreenWave? ==> r == s.(greenWave := c.on)
    ensures c.SetAdaptive? ==> r == s.(config := s.config.(adaptive := c.on))
    ensures c.SetCycleTime? ==> r == s.(config := s.config.(cycleTime := c.seconds))
    ensures c.SetMinGreen? ==> r == s.(config := s.config.(minGreen := c.seconds))
    ensures !c.ResetAll? ==> r.time == s.time && r.queues == s.queues
  {
    match c
    case Emergency(k, d) => s.(control := TriggerEmergency(s.control, k, d))
    case Crossing(d) => s.(control := TogglePedestrian(s.control, d))
    case SetWeather(w) => s.(weather := w)
    case SetGreenWave(on) => s.(greenWave := on)
    case ToggleRunning => s.(running := !s.running)
    case ResetAll => Reset(s)
    case SetAdaptive(on) => s.(config := s.config.(adaptive := on))
    case SetCycleTime(v) => s.(config := s.config.(cycleTime := v))
    case SetMinGreen(v) => s.(config := s.config.(minGreen := v))
  }

  /** Every control keeps the state invariant. */
  lemma ApplyPreservesInv(s: State, c: Command)
    requires Inv(s) && ValidCommand(c)
    ensures Inv(Apply(s, c))
  {
  }
}

=== FILE: arith.dfy ===
/** Integer facts about multiplication, `/` and `%` that the solver does
    not find on its own. */
module Arith {

  lemma MulAtLeast(k: int, n: int)
    requires k >= 1 && n > 0
    ensures k * n >= n
  {
    var m := k - 1;
    assert k * n == m * n + n;
    assert m * n >= 0;
  }

  /** Quotient and remainder are determined by `a == q * n + r` with `0 <= r < n`. */
  lemma DivModUnique(a: int, n: int, q: int, r: int)
    requires n > 0 && 0 <= r < n && a == q * n + r
    ensures a % n == r && a / n == q
  {
    var q0, r0 := a / n, a % n;
    assert a == q0 * n + r0;
    assert (q - q0) * n == r0 - r;
    if q > q0 {
      MulAtLeast(q - q0, n);
    } else if q < q0 {
      MulAtLeast(q0 - q, n);
    }
  }

  /** Advancing by one wraps the remainder from `n - 1` back to `0`. */
  lemma ModSucc(t: nat, n: int)
    requires n > 0
    ensures (t + 1) % n == if t % n + 1 == n then 0 else t % n + 1
  {
    var q, p := t / n, t % n;
    assert t == q * n + p;
    if p + 1 == n {
      assert t + 1 == (q + 1) * n + 0;
      DivModUnique(t + 1, n, q + 1, 0);
    } else {
      DivModUnique(t + 1, n, q, p + 1);
    }
  }

  /** Adding the modulus does not change the remainder. */
  lemma ModShift(t: nat, n: int)
    requires n > 0
    ensures (t + n) % n == t % n
  {
    var q, p := t / n, t % n;
    assert t + n == (q + 1) * n + p;
    DivModUnique(t + n, n, q + 1, p);
  }

  /** `a % n` by repeated subtraction. As a recursive definition it is
      unfolded one level at a time, so a caller's context does not fill up
      with remainder arithmetic it does not need. */
  function Mod(a: nat, n: nat): (r: nat)
    requires n > 0
    ensures r < n
    decreases a
  {
    if a < n then a else Mod(a - n, n)
  }

  lemma {:induction false} ModIsRemainder(a: nat, n: nat)
    requires n > 0
    ensures Mod(a, n) == a % n
    decreases a
  {
    if a >= n {
      ModIsRemainder(a - n, n);
      ModShift(a - n, n);
    }
  }
}

=== FILE: dashboard.dfy ===
/** The figures the dashboard page (Index.tsx) derives from the advanced
    engine's state: the clock label, the congestion badge, the status
    banner and the two counters. */
module Dashboard {
  import opened Traffic
  import Network
  import Advanced
  import Phases

  // ---------------------------------------------------------------------
  // Clock label `m:ss`
  // ---------------------------------------------------------------------

  predicate IsDigit(c: char) {
    '0' <= c <= '9'
  }

  predicate AllDigits(s: string) {
    forall i :: 0 <= i < |s| ==> IsDigit(s[i])
  }

  function DigitChar(d: nat): (c: char)
    requires d < 10
    ensures IsDigit(c) && (c as int) - ('0' as int) == d
  {
    ('0' as int + d) as char
  }

  /** The decimal numeral of `n`, without leading zeros. */
  function Digits(n: nat): (s: string)
    ensures 1 <= |s| && AllDigits(s)
    ensures |s| > 1 ==> s[0] != '0'
  {
    if n < 10 then [DigitChar(n)] else Digits(n / 10) + [DigitChar(n % 10)]
  }

  /** The number a string of decimal digits denotes. */
  function Value(s: string): nat
    requires AllDigits(s)
  {
    if |s| == 0 then 0
    else Value(s[..|s| - 1]) * 10 + ((s[|s| - 1] as int) - ('0' as int))
  }

  /** Reading a numeral back gives the number. */
  lemma {:induction false} ValueOfDigits(n: nat)
    ensures Value(Digits(n)) == n
  {
    if n >= 10 {
      var s := Digits(n);
      assert s[..|s| - 1] == Digits(n / 10);
      ValueOfDigits(n / 10);
    }
  }

  /** `padStart(2, '0')` of a seconds value. */
  function TwoDigits(secs: nat): (s: string)
    requires secs < 60
    ensures |s| == 2 && AllDigits(s) && Value(s) == secs
  {
    if secs < 10 then
      assert Value([DigitChar(secs)]) == secs;
      "0" + [DigitChar(secs)]
    else
      ValueOfDigits(secs);
      Digits(secs)
  }

  /** `m:ss`: whole minutes, a colon and the seconds padded to two digits.
      The label reads back to the elapsed seconds. */
  function FormatTime(seconds: nat): (r: string)
    ensures |r| >= 4 && r[|r| - 3] == ':'
    ensures AllDigits(r[..|r| - 3]) && AllDigits(r[|r| - 2..])
    ensures Value(r[|r| - 2..]) < 60
    ensures Value(r[..|r| - 3]) * 60 + Value(r[|r| - 2..]) == seconds
    ensures |r| > 4 ==> r[0] != '0'
  {
    var mins := Digits(seconds / 60);
    var secs := TwoDigits(seconds % 60);
    ValueOfDigits(seconds / 60);
    var r := mins + ":" + secs;
    assert r[..|r| - 3] == mins && r[|r| - 2..] == secs;
    r
  }

  /** Distinct clock values get distinct labels. */
  lemma FormatTimeInjective(a: nat, b: nat)
    requires FormatTime(a) == FormatTime(b)
    ensures a == b
  {
  }

  // ---------------------------------------------------------------------
  // Badges and banner
  // ---------------------------------------------------------------------

  datatype Variant = Success | Warning | Danger | Plain

  /** How alarming a badge is, for ordering. */
  function Severity(v: Variant): nat {
    match v
    case Plain => 0
    case Success => 1
    case Warning => 2
    case Danger => 3
  }

  /** The congestion badge: green below 30, amber below 70, red otherwise. */
  function CongestionVariant(index: real): (v: Variant)
    ensures v == Success <==> index < 30.0
    ensures v == Warning <==> 30.0 <= index < 70.0
    ensures v == Danger <==> index >= 70.0
  {
    if index < 30.0 then Success
    else if index < 70.0 then Warning
    else Danger
  }

  /** More congestion never shows a milder badge. */
  lemma CongestionVariantMonotone(a: real, b: real)
    requires a <= b
    ensures Severity(CongestionVariant(a)) <= Severity(CongestionVariant(b))
  {
  }

  datatype Status = EmergencyOverride | PedestrianPhase | AdaptiveControl | FixedTiming

  /** The banner's badge: danger, warning, success or the default look,
      one per status. */
  function StatusVariant(st: Status): (v: Variant)
    ensures v == Danger <==> st == EmergencyOverride
    ensures v == Warning <==> st == PedestrianPhase
    ensures v == Success <==> st == AdaptiveControl
    ensures v == Plain <==> st == FixedTiming
  {
    match st
    case EmergencyOverride => Danger
    case PedestrianPhase => Warning
    case AdaptiveControl => Success
    case FixedTiming => Plain
  }

  /** The status banner, by strict priority: any emergency type, then a
      running crossing phase, then the timing mode. */
  function SystemStatus(s: Advanced.State): (st: Status)
    ensures st == EmergencyOverride <==> s.control.emergency.Some?
    ensures st == PedestrianPhase <==> s.control.emergency.None? && s.control.pedestrianActive
    ensures st == AdaptiveControl <==>
              s.control.emergency.None? && !s.control.pedestrianActive && s.config.adaptive
    ensures st == FixedTiming <==>
              s.control.emergency.None? && !s.control.pedestrianActive && !s.config.adaptive
  {
    if s.control.emergency.Some? then EmergencyOverride
    else if s.control.pedestrianActive then PedestrianPhase
    else if s.config.adaptive then AdaptiveControl
    else FixedTiming
  }

  /** The banner describes what the next tick shows: all red under the
      crossing banner, the normal cycle under either timing banner, and
      the route's axis green whenever an emergency has a direction (which
      is always under the emergency banner). */
  lemma StatusMatchesLights(s: Advanced.State, d: Advanced.Draws)
    requires Advanced.Inv(s) && Advanced.ValidDraws(s, d)
    ensures SystemStatus(s) == PedestrianPhase ==> Advanced.Tick(s, d).lights == Lights(Red, Red)
    ensures SystemStatus(s) in {AdaptiveControl, FixedTiming} ==>
              Advanced.Tick(s, d).lights == Phases.NormalLights(s.time, s.config, s.queues.history)
    ensures Advanced.Route(s.control).Some? ==>
              SystemStatus(s) == EmergencyOverride
              && Advanced.Tick(s, d).lights == Advanced.Forced(Advanced.Route(s.control).value)
  {
  }

  // ---------------------------------------------------------------------
  // Counters
  // ---------------------------------------------------------------------

  function Flag(b: bool): nat {
    if b then 1 else 0
  }

  /** Number of open crossing requests. */
  function PedestrianRequestCount(r: Advanced.Requests): (n: nat)
    ensures n <= 4
    ensures n == 0 <==> !Advanced.AnyRequest(r)
    ensures n == 4 <==> r.north && r.south && r.east && r.west
  {
    Flag(r.north) + Flag(r.south) + Flag(r.east) + Flag(r.west)
  }

  /** A crossing button press moves the counter by exactly one, unless an
      emergency type is set. */
  lemma ToggleMovesCount(c: Advanced.Control, d: Direction)
    ensures var n := PedestrianRequestCount(c.requests);
            var m := PedestrianRequestCount(Advanced.TogglePedestrian(c, d).requests);
            && (c.emergency.Some? ==> m == n)
            && (c.emergency.None? && Advanced.Requested(c.requests, d) ==> m + 1 == n)
            && (c.emergency.None? && !Advanced.Requested(c.requests, d) ==> m == n + 1)
  {
    var t := Advanced.TogglePedestrian(c, d);
    assert Advanced.Requested(t.requests, North) == t.requests.north;
    assert Advanced.Requested(t.requests, South) == t.requests.south;
    assert Advanced.Requested(t.requests, East) == t.requests.east;
    assert Advanced.Requested(t.requests, West) == t.requests.west;
  }

  /** Number of intersections tagged synchronized. */
  function SyncCount(xs: seq<Network.Intersection>): (n: nat)
    ensures n <= |xs|
  {
    if |xs| == 0 then 0
    else SyncCount(xs[..|xs| - 1]) + Flag(xs[|xs| - 1].coordination == Network.Synchronized)
  }

  /** After a coordination pass the counter shows two synchronized
      intersections (fewer if there are fewer) while the green wave is on,
      and none while it is off. */
  lemma {:induction false} SyncCountOfTags(ys: seq<Network.Intersection>, greenWave: bool)
    requires forall i :: 0 <= i < |ys| ==> ys[i].coordination == Network.Tag(i, greenWave)
    ensures SyncCount(ys) == if greenWave then Min(2, |ys|) else 0
  {
    if |ys| > 0 {
      var p := ys[..|ys| - 1];
      assert forall i :: 0 <= i < |p| ==> p[i].coordination == Network.Tag(i, greenWave) by {
        forall i | 0 <= i < |p|
          ensures p[i].coordination == Network.Tag(i, greenWave)
        {
          assert p[i] == ys[i];
        }
      }
      SyncCountOfTags(p, greenWave);
    }
  }

  lemma SyncCountAfterCoordinate(xs: seq<Network.Intersection>, time: nat, cycleTime: nat,
                                 emergency: bool, pedestrian: bool, greenWave: bool)
    ensures SyncCount(Network.Coordinate(xs, time, cycleTime, emergency, pedestrian, greenWave))
            == if greenWave then Min(2, |xs|) else 0
  {
    SyncCountOfTags(Network.Coordinate(xs, time, cycleTime, emergency, pedestrian, greenWave), greenWave);
  }
}

=== FILE: flow.dfy ===
/** Vehicle flow of one tick: arrivals (`generateVehicles`) and departures
    (`processVehicles`). Random draws and the wall clock are parameters. */
module Flow {
  import opened Traffic
  import Weather

  const HourMs: nat := 3600000
  const DayMs: nat := 24 * HourMs

  /** Departures per tick on the preempted approach during an emergency. */
  const EmergencyRate: nat := 5

  /** Departures per tick on a green approach in the simple engine. */
  const SimpleRate: nat := 3

  /** A value of `Math.random()`. */
  predicate IsDraw(u: real) {
    0.0 <= u < 1.0
  }

  /** Hour of the day computed from `Date.now()` milliseconds. */
  function HourOfDay(nowMs: nat): (h: real)
    ensures 0.0 <= h < 24.0
  {
    (nowMs % DayMs) as real / HourMs as real
  }

  /** Arrivals double during 07:00-09:00 and 17:00-19:00, both ends inclusive. */
  function RushMultiplier(nowMs: nat): (m: nat)
    ensures m == 1 || m == 2
    ensures m == 2 <==> ((7 * HourMs <= nowMs % DayMs <= 9 * HourMs)
                         || (17 * HourMs <= nowMs % DayMs <= 19 * HourMs))
  {
    var h := HourOfDay(nowMs);
    if (7.0 <= h <= 9.0) || (17.0 <= h <= 19.0) then 2 else 1
  }

  lemma FloorBounds(x: real)
    ensures x.Floor as real <= x < x.Floor as real + 1.0
  {
  }

  lemma ProductBelow(u: real, b: real)
    requires IsDraw(u) && 0.0 < b <= 1.0
    ensures 0.0 <= u * b < b
  {
  }

  /** `floor(random * 3 * rush * impact)`: the arrival term before the `- 1`.
      It is below three times the rush multiplier scaled by the weather. */
  function ArrivalStep(u: real, rush: nat, impact: real): (k: int)
    requires IsDraw(u) && 1 <= rush <= 2 && 0.0 < impact <= 1.0
    ensures 0 <= k < 3 * rush
    ensures (k as real) < 3.0 * (rush as real) * impact
  {
    var r := rush as real;
    var p := u * impact;
    ProductBelow(u, impact);
    var x := u * 3.0 * r * impact;
    assert x == 3.0 * r * p && 3.0 * r * p < 3.0 * r * impact by {
      if rush == 1 { assert r == 1.0; } else { assert r == 2.0; }
    }
    FloorBounds(x);
    x.Floor
  }

  /** `max(0, prev + k - 1)` for one approach. */
  function ArriveOne(prev: nat, k: int): (r: nat)
    requires k >= 0
    ensures r + 1 >= prev
    ensures r <= prev + Max(0, k - 1)
    ensures k >= 1 ==> r >= prev
    ensures r == 0 <==> prev + k <= 1
  {
    Max(0, prev + k - 1)
  }

  /** Arrivals on all four approaches, each with its own draw term. */
  function Arrive(c: Counts, kn: nat, ks: nat, ke: nat, kw: nat): (r: Counts)
    ensures r.north == ArriveOne(c.north, kn) && r.south == ArriveOne(c.south, ks)
    ensures r.east == ArriveOne(c.east, ke) && r.west == ArriveOne(c.west, kw)
  {
    Counts(Max(0, c.north + kn - 1), Max(0, c.south + ks - 1),
           Max(0, c.east + ke - 1), Max(0, c.west + kw - 1))
  }

  /** Departures per approach, by strict priority: an emergency route lets
      only its own approach discharge (up to 5), a pedestrian phase stops
      everything, otherwise each green approach discharges up to the
      weather's normal rate and yellow or red approaches none. */
  function Throughput(prev: Counts, route: Option<Direction>, pedestrian: bool,
                      l: Lights, w: Weather.Condition): (thr: Counts)
    ensures forall d :: Get(thr, d) <= Get(prev, d)
    ensures route.Some? ==>
              forall d :: Get(thr, d) == (if d == route.value then Min(Get(prev, d), EmergencyRate) else 0)
    ensures route.None? && pedestrian ==> thr == NoVehicles
    ensures route.None? && !pedestrian ==>
              forall d :: Get(thr, d) == (if l.Of(d) == Green then Min(Get(prev, d), Weather.NormalRate(w)) else 0)
  {
    match route
    case Some(r) =>
      Counts(if r == North then Min(prev.north, EmergencyRate) else 0,
             if r == South then Min(prev.south, EmergencyRate) else 0,
             if r == East then Min(prev.east, EmergencyRate) else 0,
             if r == West then Min(prev.west, EmergencyRate) else 0)
    case None =>
      if pedestrian then NoVehicles
      else
        var rate := Weather.NormalRate(w);
        Counts(if l.ns == Green then Min(prev.north, rate) else 0,
               if l.ns == Green then Min(prev.south, rate) else 0,
               if l.ew == Green then Min(prev.east, rate) else 0,
               if l.ew == Green then Min(prev.west, rate) else 0)
  }

  /** The simple engine's departures: up to 3 per green approach. */
  function SimpleThroughput(prev: Counts, l: Lights): (thr: Counts)
    ensures forall d :: Get(thr, d) == (if l.Of(d) == Green then Min(Get(prev, d), SimpleRate) else 0)
  {
    Counts(if l.ns == Green then Min(prev.north, SimpleRate) else 0,
           if l.ns == Green then Min(prev.south, SimpleRate) else 0,
           if l.ew == Green then Min(prev.east, SimpleRate) else 0,
           if l.ew == Green then Min(prev.west, SimpleRate) else 0)
  }

  /** The simple engine discharges like the advanced one in clear weather with no override. */
  lemma SimpleIsClearWeather(prev: Counts, l: Lights)
    ensures SimpleThroughput(prev, l) == Throughput(prev, None, false, l, Weather.Clear)
  {
  }

  /** Removes the departures from the queues. */
  function Depart(prev: Counts, thr: Counts): (r: Counts)
    requires forall d :: Get(thr, d) <= Get(prev, d)
    ensures forall d :: Get(r, d) + Get(thr, d) == Get(prev, d)
    ensures Total(r) + Total(thr) == Total(prev)
  {
    assert Get(thr, North) <= Get(prev, North) && Get(thr, South) <= Get(prev, South);
    assert Get(thr, East) <= Get(prev, East) && Get(thr, West) <= Get(prev, West);
    Counts(prev.north - thr.north, prev.south - thr.south,
           prev.east - thr.east, prev.west - thr.west)
  }

  /** A secondary intersection's count after `floor(random * 2 * impact) - 1`
      is added and the result floored at zero: it never grows. */
  function SecondaryArrive(count: nat, u: real, impact: real): (r: nat)
    requires IsDraw(u) && 0.0 < impact <= 1.0
    ensures r <= count
    ensures r + 1 >= count
  {
    var x := u * 2.0 * impact;
    ProductBelow(u, impact);
    assert x == 2.0 * (u * impact);
    FloorBounds(x);
    Max(0, count + x.Floor - 1)
  }
}

=== FILE: network.dfy ===
/** The secondary intersections: a fixed even-split schedule shifted by a
    per-index offset from the shared clock, forced all-red under any global
    override, plus a presentational coordination tag. */
module Network {
  import opened Traffic
  import Flow
  import Phases
  import Arith

  datatype Coordination = Synchronized | Independent | Delayed

  datatype Intersection = Intersection(id: string, name: string, lights: Lights,
                                       vehicleCount: nat, coordination: Coordination)

  /** Seconds of offset between neighbouring intersections. */
  const OffsetStep: nat := 20

  /** The three intersections the engine starts with. */
  const InitialIntersections: seq<Intersection> := [
    Intersection("A", "Main & 1st", Lights(Red, Green), 12, Synchronized),
    Intersection("B", "Main & 2nd", Lights(Green, Red), 8, Synchronized),
    Intersection("C", "Main & 3rd", Lights(Red, Green), 15, Delayed)
  ]

  /** Every intersection shows a safe signal pair. */
  predicate AllSafe(xs: seq<Intersection>) {
    forall i :: 0 <= i < |xs| ==> Safe(xs[i].lights)
  }

  /** Position of intersection `index` in its `cycleTime + 6` second cycle. */
  function LocalPosition(time: nat, index: nat, cycleTime: nat): (p: nat)
    ensures p < cycleTime + 6
  {
    Arith.Mod(time + OffsetStep * index, cycleTime + 6)
  }

  /** The position is `(time + 20 * index) % (cycleTime + 6)`. Kept apart
      from the function's contract so that callers reason about the
      position without remainder arithmetic unless they ask for it. */
  lemma LocalPositionIsRemainder(time: nat, index: nat, cycleTime: nat)
    ensures LocalPosition(time, index, cycleTime) == (time + OffsetStep * index) % (cycleTime + 6)
  {
    Arith.ModIsRemainder(time + OffsetStep * index, cycleTime + 6);
  }

  /** Lights of intersection `index`: all red while an emergency type is set
      or a pedestrian phase runs; otherwise NS green below `cycleTime/2`,
      NS yellow for 3 seconds, EW green until `cycleTime`, then EW yellow. */
  function SecondaryLights(time: nat, index: nat, cycleTime: nat, emergency: bool, pedestrian: bool): (l: Lights)
    ensures Safe(l)
    ensures (l.ns == Red && l.ew == Red) <==> (emergency || pedestrian)
  {
    var p := LocalPosition(time, index, cycleTime);
    if emergency || pedestrian then Lights(Red, Red)
    else if 2 * p < cycleTime then Lights(Green, Red)
    else if 2 * p < cycleTime + 6 then Lights(Yellow, Red)
    else if p < cycleTime then Lights(Red, Green)
    else Lights(Red, Yellow)
  }

  /** The schedule of intersection 0 (the others are shifted copies): NS
      green up to `y - 1`, NS yellow for the three seconds from `y`, the
      first second at or after `cycleTime / 2`; EW green from `y + 3` to
      `cycleTime - 1`; then EW yellow for six seconds, from `cycleTime` to
      the end of the `cycleTime + 6` cycle, and NS green again. The main
      intersection's EW yellow lasts three seconds. */
  lemma SecondarySchedule(cycleTime: nat)
    requires cycleTime >= 30
    ensures var y := (cycleTime + 1) / 2;
            && SecondaryLights(y - 1, 0, cycleTime, false, false) == Lights(Green, Red)
            && (forall t :: y <= t < y + 3 ==> SecondaryLights(t, 0, cycleTime, false, false) == Lights(Yellow, Red))
            && SecondaryLights(y + 3, 0, cycleTime, false, false) == Lights(Red, Green)
            && SecondaryLights(cycleTime - 1, 0, cycleTime, false, false) == Lights(Red, Green)
            && (forall t :: cycleTime <= t < cycleTime + 6 ==>
                  SecondaryLights(t, 0, cycleTime, false, false) == Lights(Red, Yellow))
            && SecondaryLights(cycleTime + 6, 0, cycleTime, false, false) == Lights(Green, Red)
  {
    var y := (cycleTime + 1) / 2;
    forall t: nat | t < cycleTime + 6
      ensures LocalPosition(t, 0, cycleTime) == t
    {
    }
    assert LocalPosition(cycleTime + 6, 0, cycleTime) == 0 by {
      assert Arith.Mod(cycleTime + 6, cycleTime + 6) == Arith.Mod(0, cycleTime + 6);
    }
  }

  /** Intersection `index` runs the schedule of intersection 0 shifted by
      `20 * index` seconds, and each schedule repeats every `cycleTime + 6`. */
  lemma SecondaryOffsetAndPeriod(time: nat, index: nat, cycleTime: nat, emergency: bool, pedestrian: bool)
    ensures SecondaryLights(time, index, cycleTime, emergency, pedestrian)
         == SecondaryLights(time + OffsetStep * index, 0, cycleTime, emergency, pedestrian)
    ensures SecondaryLights(time + cycleTime + 6, index, cycleTime, emergency, pedestrian)
         == SecondaryLights(time, index, cycleTime, emergency, pedestrian)
  {
    var t := time + OffsetStep * index;
    Arith.ModShift(t, cycleTime + 6);
    assert time + cycleTime + 6 + OffsetStep * index == t + (cycleTime + 6);
    Arith.ModIsRemainder(t, cycleTime + 6);
    Arith.ModIsRemainder(t + (cycleTime + 6), cycleTime + 6);
  }

  /** Without an override, consecutive seconds show the same phase or the
      next one in the order NS green, NS yellow, EW green, EW yellow. */
  lemma SecondaryPhaseStep(time: nat, index: nat, cycleTime: nat)
    requires cycleTime >= 30
    ensures var a := SecondaryLights(time, index, cycleTime, false, false);
            var b := SecondaryLights(time + 1, index, cycleTime, false, false);
            b == a || b == Phases.Next(a)
  {
    var t := time + OffsetStep * index;
    Arith.ModSucc(t, cycleTime + 6);
    assert time + 1 + OffsetStep * index == t + 1;
    Arith.ModIsRemainder(t, cycleTime + 6);
    Arith.ModIsRemainder(t + 1, cycleTime + 6);
  }

  /** `synchronized` for the first two while the green wave is on, `delayed`
      for the third, `independent` otherwise. */
  function Tag(index: nat, greenWave: bool): (c: Coordination)
    ensures c == Synchronized <==> greenWave && index < 2
    ensures c == Delayed <==> !(greenWave && index < 2) && index == 2
  {
    if greenWave && index < 2 then Synchronized
    else if index == 2 then Delayed
    else Independent
  }

  /** The coordination pass: recomputes lights and tag of every
      intersection and leaves its id, name and count alone. */
  function Coordinate(xs: seq<Intersection>, time: nat, cycleTime: nat,
                      emergency: bool, pedestrian: bool, greenWave: bool): (ys: seq<Intersection>)
    ensures |ys| == |xs|
    ensures forall i :: 0 <= i < |xs| ==>
              ys[i].id == xs[i].id && ys[i].name == xs[i].name && ys[i].vehicleCount == xs[i].vehicleCount
    ensures forall i :: 0 <= i < |xs| ==>
              ys[i].lights == SecondaryLights(time, i, cycleTime, emergency, pedestrian)
              && ys[i].coordination == Tag(i, greenWave)
    ensures AllSafe(ys)
  {
    seq(|xs|, i requires 0 <= i < |xs| =>
      xs[i].(lights := SecondaryLights(time, i, cycleTime, emergency, pedestrian),
             coordination := Tag(i, greenWave)))
  }

  /** One random draw per intersection. */
  predicate DrawsFor(n: nat, draws: seq<real>) {
    |draws| == n && forall i :: 0 <= i < |draws| ==> Flow.IsDraw(draws[i])
  }

  /** The arrival pass on the secondaries: each count changes by
      `floor(random * 2 * impact) - 1`, which is 0 or -1, floored at zero. */
  function ArriveAll(xs: seq<Intersection>, draws: seq<real>, impact: real): (ys: seq<Intersection>)
    requires DrawsFor(|xs|, draws) && 0.0 < impact <= 1.0
    ensures |ys| == |xs|
    ensures forall i :: 0 <= i < |xs| ==> ys[i] == xs[i].(vehicleCount := ys[i].vehicleCount)
    ensures forall i :: 0 <= i < |xs| ==>
              ys[i].vehicleCount <= xs[i].vehicleCount && ys[i].vehicleCount + 1 >= xs[i].vehicleCount
  {
    seq(|xs|, i requires 0 <= i < |xs| =>
      xs[i].(vehicleCount := Flow.SecondaryArrive(xs[i].vehicleCount, draws[i], impact)))
  }
}

=== FILE: phases.dfy ===
/** Signal timing of the primary intersection: the adaptive green split
    computed from recent traffic history, and the four-phase cycle
    (NS green, NS yellow, EW green, EW yellow) selected by cycle position.
    Shared by both engines (useTrafficSimulation.ts and
    useAdvancedTrafficSimulation.ts contain the same code). */
module Phases {
  import opened Traffic
  import Window
  import Arith

  /** Seconds of yellow after each green. */
  const YellowTime: int := 3

  /** Number of history samples the adaptive controller averages. */
  const RecentSamples: nat := 10

  /** Samples needed before adaptive timing departs from the even split. */
  const MinSamples: nat := 5

  datatype Config = Config(adaptive: bool, cycleTime: int, minGreen: int)

  /** Slider bounds: cycle time 30..120 in steps of 5, minimum green 5..30 in steps of 1. */
  predicate ValidConfig(c: Config) {
    ValidCycleTime(c.cycleTime) && ValidMinGreen(c.minGreen)
  }

  predicate ValidCycleTime(v: int) {
    30 <= v <= 120 && v % 5 == 0
  }

  predicate ValidMinGreen(v: int) {
    5 <= v <= 30
  }

  /** What the timing calculation returns: a bare number (half the cycle,
      possibly x.5) or a pair of green durations. The consumer treats the
      two shapes differently, so they are kept apart. */
  datatype Timing = Even(half: real) | Split(ns: real, ew: real)

  predicate IsWhole(x: real) {
    x == x.Floor as real
  }

  lemma IntIsWhole(k: int)
    ensures IsWhole(k as real)
  {
    assert (k as real).Floor == k;
  }

  /** Shapes the engine can produce: positive greens whose sum is whole. */
  predicate WellFormed(t: Timing) {
    match t
    case Even(h) => h > 0.0
    case Split(n, e) => n > 0.0 && e >= 1.0 && IsWhole(n + e)
  }

  // ---------------------------------------------------------------------
  // Adaptive green split
  // ---------------------------------------------------------------------

  /** North-south vehicles summed over a run of history snapshots. */
  function SumNs(h: seq<Counts>): nat {
    if |h| == 0 then 0 else SumNs(h[..|h| - 1]) + NsLoad(h[|h| - 1])
  }

  /** East-west vehicles summed over a run of history snapshots. */
  function SumEw(h: seq<Counts>): nat {
    if |h| == 0 then 0 else SumEw(h[..|h| - 1]) + EwLoad(h[|h| - 1])
  }

  /** The snapshots the controller looks at: `history.slice(-10)`. */
  function Recent(h: seq<Counts>): seq<Counts> {
    Window.Last(h, RecentSamples)
  }

  /** The recent load is zero exactly when every recent snapshot is empty. */
  lemma {:induction false} LoadZeroIffEmpty(h: seq<Counts>)
    ensures SumNs(h) + SumEw(h) == 0 <==> forall i :: 0 <= i < |h| ==> Total(h[i]) == 0
  {
    if |h| > 0 {
      var init := h[..|h| - 1];
      LoadZeroIffEmpty(init);
      assert forall i :: 0 <= i < |init| ==> init[i] == h[i];
    }
  }

  /** `floor(cycleTime * part / whole)`: the cycle share of a load. The
      averages' common divisor cancels, so the source's
      `floor(cycleTime * (avgNs / (avgNs + avgEw)))` is this quotient. */
  function Share(cycleTime: nat, part: nat, whole: nat): (k: nat)
    requires 0 < whole && part <= whole
    ensures k * whole <= cycleTime * part < (k + 1) * whole
    ensures k <= cycleTime
  {
    var a := cycleTime * part;
    var k := a / whole;
    assert a == k * whole + a % whole;
    assert (k + 1) * whole == k * whole + whole;
    assert a <= cycleTime * whole by {
      assert cycleTime * whole == a + cycleTime * (whole - part);
      assert cycleTime * (whole - part) >= 0;
    }
    assert k <= cycleTime by {
      if k > cycleTime {
        Arith.MulAtLeast(k - cycleTime, whole);
      }
    }
    k
  }

  /** Green durations for a non-zero recent load: NS gets its proportional
      share but at least `minGreen`, EW gets the rest but at least `minGreen`. */
  function GreenSplit(cycleTime: nat, minGreen: int, nsLoad: nat, ewLoad: nat): (r: (int, int))
    requires nsLoad + ewLoad > 0
    ensures r.0 >= minGreen && r.1 >= minGreen
    ensures r.0 + r.1 >= cycleTime
    ensures r.0 + r.1 == cycleTime <==> cycleTime - r.0 >= minGreen
    ensures r.0 + r.1 == cycleTime || r.1 == minGreen
    ensures r.0 <= Max(minGreen, cycleTime)
  {
    var nsTime := Max(minGreen, Share(cycleTime, nsLoad, nsLoad + ewLoad));
    (nsTime, Max(minGreen, cycleTime - nsTime))
  }

  /** The NS green is the floor of its load share of the cycle, raised to
      `minGreen` when the share is smaller. */
  lemma GreenSplitProportional(cycleTime: nat, minGreen: int, nsLoad: nat, ewLoad: nat)
    requires nsLoad + ewLoad > 0
    ensures var ns := GreenSplit(cycleTime, minGreen, nsLoad, ewLoad).0;
            && cycleTime * nsLoad < (ns + 1) * (nsLoad + ewLoad)
            && (ns > minGreen ==> ns * (nsLoad + ewLoad) <= cycleTime * nsLoad)
  {
    var w := nsLoad + ewLoad;
    var share := Share(cycleTime, nsLoad, w);
    var ns := GreenSplit(cycleTime, minGreen, nsLoad, ewLoad).0;
    assert ns == Max(minGreen, share);
    if ns > share {
      Arith.MulAtLeast(ns - share, w);
      assert (ns + 1) * w == (share + 1) * w + (ns - share) * w;
    }
  }

  /** The adaptive controller (`calculateAdaptiveTiming`). */
  function AdaptiveTiming(cfg: Config, h: seq<Counts>): (t: Timing)
    requires ValidConfig(cfg)
    ensures t.Even? <==> (!cfg.adaptive || |h| < MinSamples || SumNs(Recent(h)) + SumEw(Recent(h)) == 0)
    ensures t.Even? ==> 2.0 * t.half == cfg.cycleTime as real
    ensures t.Split? ==> IsWhole(t.ns) && IsWhole(t.ew)
    ensures t.Split? ==> t.ns >= cfg.minGreen as real && t.ew >= cfg.minGreen as real
    ensures t.Split? ==> t.ns + t.ew >= cfg.cycleTime as real
    ensures t.Split? ==> (t.ns + t.ew == cfg.cycleTime as real <==> cfg.cycleTime as real - t.ns >= cfg.minGreen as real)
    ensures t.Split? ==> (t.ns + t.ew == cfg.cycleTime as real || t.ew == cfg.minGreen as real)
    ensures WellFormed(t)
  {
    if !cfg.adaptive || |h| < MinSamples then
      Even(cfg.cycleTime as real / 2.0)
    else
      var w := Recent(h);
      var nsLoad, ewLoad := SumNs(w), SumEw(w);
      if nsLoad + ewLoad == 0 then
        Even(cfg.cycleTime as real / 2.0)
      else
        var r := GreenSplit(cfg.cycleTime, cfg.minGreen, nsLoad, ewLoad);
        assert IsWhole(r.0 as real + r.1 as real) by {
          assert r.0 as real + r.1 as real == (r.0 + r.1) as real;
          IntIsWhole(r.0 + r.1);
        }
        Split(r.0 as real, r.1 as real)
  }

  /** With fewer than five samples the split is even, however unbalanced the queues. */
  lemma FewSamplesEven(cfg: Config, h: seq<Counts>)
    requires ValidConfig(cfg) && |h| < MinSamples
    ensures AdaptiveTiming(cfg, h) == Even(cfg.cycleTime as real / 2.0)
  {
  }

  /** The timing the tick uses: adaptive mode asks the controller, fixed
      mode uses the pair `{cycleTime/2, cycleTime/2}`. */
  function EngineTiming(cfg: Config, h: seq<Counts>): (t: Timing)
    requires ValidConfig(cfg)
    ensures WellFormed(t)
    ensures t.Even? ==> cfg.adaptive
    ensures cfg.adaptive ==> t == AdaptiveTiming(cfg, h)
    ensures !cfg.adaptive ==> 2.0 * t.ns == cfg.cycleTime as real && t.ns == t.ew
  {
    if cfg.adaptive then AdaptiveTiming(cfg, h)
    else
      var half := cfg.cycleTime as real / 2.0;
      assert IsWhole(half + half) by { assert half + half == cfg.cycleTime as real; }
      Split(half, half)
  }

  // ---------------------------------------------------------------------
  // The four-phase cycle
  // ---------------------------------------------------------------------

  /** Cycle length the consumer derives: `cycleTime` for the bare number,
      `nsTime + ewTime + 6` for the pair. */
  function CycleLength(t: Timing, cycleTime: int): (len: int)
    requires WellFormed(t) && cycleTime > 0
    ensures len > 0
    ensures t.Even? ==> len == cycleTime
    ensures t.Split? ==> len as real == t.ns + t.ew + 2.0 * YellowTime as real
  {
    match t
    case Even(_) => cycleTime
    case Split(n, e) => (n + e).Floor + 2 * YellowTime
  }

  /** Interval rule: NS green for `ns`, NS yellow for 3, EW green for `ew`, then EW yellow. */
  function FourPhase(pos: real, ns: real, ew: real): (l: Lights)
    ensures OneAxisMoving(l)
  {
    if pos < ns then Lights(Green, Red)
    else if pos < ns + YellowTime as real then Lights(Yellow, Red)
    else if pos < ns + YellowTime as real + ew then Lights(Red, Green)
    else Lights(Red, Yellow)
  }

  function SelectPhase(pos: int, t: Timing): (l: Lights)
    ensures OneAxisMoving(l)
  {
    match t
    case Even(h) => FourPhase(pos as real, h, h)
    case Split(n, e) => FourPhase(pos as real, n, e)
  }

  /** Lights of the primary intersection under normal operation at tick `time`. */
  function NormalLights(time: nat, cfg: Config, h: seq<Counts>): (l: Lights)
    requires ValidConfig(cfg)
    ensures OneAxisMoving(l)
    ensures EngineTiming(cfg, h).Even? ==> l.ew != Yellow
  {
    var t := EngineTiming(cfg, h);
    SelectPhase(time % CycleLength(t, cfg.cycleTime), t)
  }

  /** Successor in the cycle order NS green, NS yellow, EW green, EW yellow. */
  function Next(l: Lights): Lights {
    if l == Lights(Green, Red) then Lights(Yellow, Red)
    else if l == Lights(Yellow, Red) then Lights(Red, Green)
    else if l == Lights(Red, Green) then Lights(Red, Yellow)
    else Lights(Green, Red)
  }

  /** One step of a pair-shaped cycle either keeps the phase or moves to the next one. */
  lemma FourPhaseStep(p: int, n: real, e: real, len: int)
    requires n > 0.0 && e >= 1.0 && len as real == n + e + 6.0
    requires 0 <= p < len
    ensures var a := FourPhase(p as real, n, e);
            var b := FourPhase(if p + 1 == len then 0.0 else (p + 1) as real, n, e);
            b == a || b == Next(a)
  {
  }

  /** Length of the NS green: the half for the bare number, `ns` for a pair. */
  function NsGreen(t: Timing): real {
    match t
    case Even(h) => h
    case Split(n, _) => n
  }

  /** Length of the EW green: the half for the bare number, `ew` for a pair. */
  function EwGreen(t: Timing): real {
    match t
    case Even(h) => h
    case Split(_, e) => e
  }

  /** The NS yellow lasts three seconds under either timing shape: `k` is the
      first position at or after the end of the NS green, the position
      before it is NS green, `k` to `k + 2` are NS yellow, and `k + 3` is EW
      green. */
  lemma NsYellowThreeSeconds(t: Timing, k: int)
    requires WellFormed(t) && EwGreen(t) >= 1.0
    requires (k - 1) as real < NsGreen(t) <= k as real
    ensures SelectPhase(k - 1, t) == Lights(Green, Red)
    ensures SelectPhase(k, t) == Lights(Yellow, Red)
    ensures SelectPhase(k + 1, t) == Lights(Yellow, Red)
    ensures SelectPhase(k + 2, t) == Lights(Yellow, Red)
    ensures SelectPhase(k + 3, t) == Lights(Red, Green)
  {
  }

  /** The EW yellow of a pair-shaped cycle lasts three seconds: the last
      three positions of the cycle are EW yellow, the one before them EW
      green, and the cycle starts again with NS green. */
  lemma EwYellowThreeSeconds(t: Timing, cycleTime: int)
    requires t.Split? && WellFormed(t) && cycleTime > 0
    ensures var len := CycleLength(t, cycleTime);
            && SelectPhase(len - 4, t) == Lights(Red, Green)
            && SelectPhase(len - 3, t) == Lights(Red, Yellow)
            && SelectPhase(len - 2, t) == Lights(Red, Yellow)
            && SelectPhase(len - 1, t) == Lights(Red, Yellow)
            && SelectPhase(0, t) == Lights(Green, Red)
  {
  }

  /** The fixed 60-second schedule: seconds 0-29 NS green, 30-32 NS yellow,
      33-62 EW green, 63-65 EW yellow, repeating every 66 seconds. */
  lemma FixedSixty(time: nat, h: seq<Counts>)
    ensures var l := NormalLights(time, Config(false, 60, 10), h);
            var p := time % 66;
            && (p < 30 <==> l == Lights(Green, Red))
            && (30 <= p < 33 <==> l == Lights(Yellow, Red))
            && (33 <= p < 63 <==> l == Lights(Red, Green))
            && (63 <= p <==> l == Lights(Red, Yellow))
  {
    var cfg := Config(false, 60, 10);
    assert EngineTiming(cfg, h) == Split(30.0, 30.0);
    assert CycleLength(Split(30.0, 30.0), 60) == 66;
  }

  /** Pair timing with a fixed history and configuration: consecutive
      ticks show the same phase or its successor, so every phase, both
      yellows included, is visited in order. `RetimingSkipsNsYellow` shows
      that this needs the history to stay fixed. */
  lemma SplitPhaseStep(time: nat, cfg: Config, h: seq<Counts>)
    requires ValidConfig(cfg) && EngineTiming(cfg, h).Split?
    ensures NormalLights(time + 1, cfg, h) == NormalLights(time, cfg, h)
         || NormalLights(time + 1, cfg, h) == Next(NormalLights(time, cfg, h))
  {
    var t := EngineTiming(cfg, h);
    var len := CycleLength(t, cfg.cycleTime);
    Arith.ModSucc(time, len);
    FourPhaseStep(time % len, t.ns, t.ew, len);
  }

  /** The engine recomputes the split every second from the history, and a
      new sample can move the cycle position across a phase boundary. A run
      at second 360 has sampled the queues 36 times. If the last ten
      samples hold 40 NS and 20 EW vehicles each, the split is (40, 20) and
      second 360 shows NS green. If the queues then hold 300 EW vehicles,
      the sample taken on that tick re-times the split to (25, 35), and
      second 361 shows EW green: NS goes from green to red without its
      yellow. */
  lemma RetimingSkipsNsYellow(h: seq<Counts>)
    requires |h| >= RecentSamples
    requires forall i :: |h| - RecentSamples <= i < |h| ==> h[i] == Counts(20, 20, 10, 10)
    ensures var cfg := Config(true, 60, 10);
            var h' := h + [Counts(0, 0, 150, 150)];
            && EngineTiming(cfg, h) == Split(40.0, 20.0)
            && EngineTiming(cfg, h') == Split(25.0, 35.0)
            && NormalLights(360, cfg, h) == Lights(Green, Red)
            && NormalLights(361, cfg, h') == Lights(Red, Green)
  {
    var cfg := Config(true, 60, 10);
    var c, x := Counts(20, 20, 10, 10), Counts(0, 0, 150, 150);
    var h' := h + [x];
    var ten, nine := seq(10, i => c), seq(9, i => c);
    assert Recent(h) == ten;
    assert Recent(h') == nine + [x];
    assert (nine + [x])[..9] == nine;
    SumsOfCopies(c, 10);
    SumsOfCopies(c, 9);
    assert Share(60, 400, 600) == 40 && Share(60, 360, 840) == 25;
    assert EngineTiming(cfg, h) == Split(40.0, 20.0);
    assert EngineTiming(cfg, h') == Split(25.0, 35.0);
    assert CycleLength(Split(40.0, 20.0), 60) == 66;
    assert CycleLength(Split(25.0, 35.0), 60) == 66;
  }

  /** The loads of `n` copies of one snapshot. */
  lemma {:induction false} SumsOfCopies(c: Counts, n: nat)
    ensures SumNs(seq(n, i => c)) == n * NsLoad(c)
    ensures SumEw(seq(n, i => c)) == n * EwLoad(c)
  {
    if n > 0 {
      var r, init := seq(n, i => c), seq(n - 1, i => c);
      assert r[..n - 1] == init && r[n - 1] == c;
      SumsOfCopies(c, n - 1);
      assert SumNs(r) == SumNs(init) + NsLoad(c) && SumEw(r) == SumEw(init) + EwLoad(c);
      assert (n - 1) * NsLoad(c) + NsLoad(c) == n * NsLoad(c);
      assert (n - 1) * EwLoad(c) + EwLoad(c) == n * EwLoad(c);
    }
  }

  /** Bare-number timing: the cycle is only `cycleTime` long, so EW green is
      followed directly by NS green and EW never shows yellow. */
  lemma EvenSkipsEwYellow(cfg: Config, h: seq<Counts>)
    requires ValidConfig(cfg) && EngineTiming(cfg, h).Even?
    ensures NormalLights(cfg.cycleTime - 1, cfg, h) == Lights(Red, Green)
    ensures NormalLights(cfg.cycleTime, cfg, h) == Lights(Green, Red)
  {
    var t := EngineTiming(cfg, h);
    assert CycleLength(t, cfg.cycleTime) == cfg.cycleTime;
    assert (cfg.cycleTime - 1) % cfg.cycleTime == cfg.cycleTime - 1;
    assert cfg.cycleTime % cfg.cycleTime == 0;
  }

  /** The cycle repeats with the derived length and starts with NS green. */
  lemma NormalLightsPeriodic(time: nat, cfg: Config, h: seq<Counts>)
    requires ValidConfig(cfg)
    ensures NormalLights(time + CycleLength(EngineTiming(cfg, h), cfg.cycleTime), cfg, h) == NormalLights(time, cfg, h)
    ensures NormalLights(0, cfg, h) == Lights(Green, Red)
  {
    Arith.ModShift(time, CycleLength(EngineTiming(cfg, h), cfg.cycleTime));
  }
}

=== FILE: simple.dfy ===
/** The simple engine (useTrafficSimulation.ts): one intersection, no
    emergencies, crossings, weather or secondaries. Each approach draws its
    own arrival term; departures use the pre-tick lights at up to three
    vehicles per green approach. */
module Simple {
  import opened Traffic
  import Window
  import Phases
  import Flow
  import Advanced
  import Weather

  /** Metrics of the simple engine; its congestion index is a whole number. */
  datatype Metrics = Metrics(avgWaitTime: real, vehiclesPerMinute: nat,
                             congestionIndex: nat, totalProcessed: nat)

  const ZeroMetrics := Metrics(0.0, 0, 0, 0)

  datatype State = State(
    running: bool,
    time: nat,
    lights: Lights,
    config: Phases.Config,
    counts: Counts,
    history: seq<Counts>,
    metrics: Metrics)

  /** The state the hook starts in: stopped, empty queues. */
  const Initial := State(false, 0, Lights(Red, Green), Phases.Config(true, 60, 10),
                         NoVehicles, [], ZeroMetrics)

  /** History samples are taken on ticks that are multiples of this. */
  const SamplePeriod: nat := 10
  const HistoryKeep: nat := 50

  predicate Inv(s: State) {
    Phases.ValidConfig(s.config) && Safe(s.lights) && |s.history| <= HistoryKeep + 1
  }

  lemma InitialSatisfiesInv()
    ensures Inv(Initial)
  {
  }

  /** Inputs of a tick: `Date.now()` and one draw per approach. */
  datatype Draws = Draws(nowMs: nat, north: real, south: real, east: real, west: real)

  predicate ValidDraws(d: Draws) {
    Flow.IsDraw(d.north) && Flow.IsDraw(d.south) && Flow.IsDraw(d.east) && Flow.IsDraw(d.west)
  }

  /** Queues after this tick's arrivals: `floor(random * 3 * rush) - 1` per
      approach, floored at zero. */
  function Arrivals(s: State, d: Draws): (c: Counts)
    requires ValidDraws(d)
    ensures c.north == Flow.ArriveOne(s.counts.north, Flow.ArrivalStep(d.north, Flow.RushMultiplier(d.nowMs), 1.0))
    ensures c.south == Flow.ArriveOne(s.counts.south, Flow.ArrivalStep(d.south, Flow.RushMultiplier(d.nowMs), 1.0))
    ensures c.east == Flow.ArriveOne(s.counts.east, Flow.ArrivalStep(d.east, Flow.RushMultiplier(d.nowMs), 1.0))
    ensures c.west == Flow.ArriveOne(s.counts.west, Flow.ArrivalStep(d.west, Flow.RushMultiplier(d.nowMs), 1.0))
    ensures forall dir :: Get(c, dir) + 1 >= Get(s.counts, dir)
    ensures forall dir :: Get(c, dir) <= Get(s.counts, dir) + 3 * Flow.RushMultiplier(d.nowMs) - 2
  {
    var rush := Flow.RushMultiplier(d.nowMs);
    Flow.Arrive(s.counts,
                Flow.ArrivalStep(d.north, rush, 1.0), Flow.ArrivalStep(d.south, rush, 1.0),
                Flow.ArrivalStep(d.east, rush, 1.0), Flow.ArrivalStep(d.west, rush, 1.0))
  }

  /** This tick's departures, from the post-arrival queues and the old lights. */
  function Departed(s: State, d: Draws): (thr: Counts)
    requires ValidDraws(d)
    ensures forall dir :: Get(thr, dir) == (if s.lights.Of(dir) == Green then Min(Get(Arrivals(s, d), dir), Flow.SimpleRate) else 0)
    ensures forall dir :: Get(thr, dir) <= Get(Arrivals(s, d), dir)
    ensures forall dir :: Get(thr, dir) <= Flow.SimpleRate
  {
    Flow.SimpleThroughput(Arrivals(s, d), s.lights)
  }

  /** Estimated wait: 2.5 seconds per waiting vehicle. */
  function WaitTime(waiting: nat): (t: real)
    ensures t == 2.5 * waiting as real
    ensures t == 0.0 <==> waiting == 0
  {
    if waiting > 0 then waiting as real * 2.5 else 0.0
  }

  /** Congestion index `min(100, 5 * waiting)`. */
  function Congestion(waiting: nat): (c: nat)
    ensures c <= 100
    ensures c == 100 <==> waiting >= 20
    ensures c < 100 ==> c == 5 * waiting
  {
    Min(100, waiting * 5)
  }

  /** In clear weather the advanced engine's wait and congestion formulas
      give the simple engine's values. */
  lemma ClearWeatherMetrics(waiting: nat)
    ensures Advanced.WaitTime(waiting, Weather.Clear) == WaitTime(waiting)
    ensures Advanced.Congestion(waiting, Weather.Clear) == Congestion(waiting) as real
  {
    assert Weather.Impact(Weather.Clear) == 1.0;
    assert waiting as real * 5.0 / 1.0 == (waiting * 5) as real;
  }

  /** Metrics after a tick: wait and congestion from the pre-tick queues,
      throughput from this tick's departures. */
  function NextMetrics(s: State, d: Draws): (m: Metrics)
    requires ValidDraws(d)
    ensures m.totalProcessed == s.metrics.totalProcessed + Total(Departed(s, d))
    ensures m.vehiclesPerMinute == 6 * Total(Departed(s, d))
    ensures m.avgWaitTime == WaitTime(Total(s.counts)) && m.congestionIndex == Congestion(Total(s.counts))
  {
    var waiting := Total(s.counts);
    var processed := Total(Departed(s, d));
    Metrics(WaitTime(waiting), 6 * processed, Congestion(waiting), s.metrics.totalProcessed + processed)
  }

  /** One second of the simple simulation. */
  function Tick(s: State, d: Draws): (r: State)
    requires Inv(s) && ValidDraws(d)
    ensures Inv(r)
    ensures r.time == s.time + 1 && r.running == s.running && r.config == s.config
    ensures r.metrics.totalProcessed + Total(r.counts) == s.metrics.totalProcessed + Total(Arrivals(s, d))
    ensures forall dir :: Get(r.counts, dir) + Flow.SimpleRate >= Get(Arrivals(s, d), dir)
    ensures forall dir :: s.lights.Of(dir) != Green ==> Get(r.counts, dir) == Get(Arrivals(s, d), dir)
    ensures OneAxisMoving(r.lights) && r.lights == Phases.NormalLights(s.time, s.config, s.history)
    ensures s.time % SamplePeriod == 0 ==> 1 <= |r.history| && r.history[|r.history| - 1] == s.counts
    ensures s.time % SamplePeriod != 0 ==> r.history == s.history
  {
    var arrived := Arrivals(s, d);
    var thr := Departed(s, d);
    s.(time := s.time + 1,
       counts := Flow.Depart(arrived, thr),
       history := Window.Sample(s.time % SamplePeriod == 0, s.history, s.counts, HistoryKeep),
       lights := Phases.NormalLights(s.time, s.config, s.history),
       metrics := NextMetrics(s, d))
  }

  /** The reset button: stopped, clock at zero, empty queues and history,
      zero metrics, NS red and EW green; the configuration stays. */
  function Reset(s: State): (r: State)
    ensures !r.running && r.time == 0 && r.counts == NoVehicles && r.history == []
    ensures r.metrics == ZeroMetrics && r.lights == Lights(Red, Green)
    ensures r.config == s.config
    ensures Phases.ValidConfig(s.config) ==> Inv(r)
  {
    s.(running := false, time := 0, counts := NoVehicles, history := [],
       metrics := ZeroMetrics, lights := Lights(Red, Green))
  }

  /** Resetting twice is resetting once, and resetting the initial state changes nothing. */
  lemma ResetIdempotent(s: State)
    ensures Reset(Reset(s)) == Reset(s)
    ensures Reset(Initial) == Initial
  {
  }

  /** The controls of the simple engine. */
  datatype Command =
    | ToggleRunning
    | ResetAll
    | SetAdaptive(on: bool)
    | SetCycleTime(seconds: int)
    | SetMinGreen(seconds: int)

  /** Slider values the control panel can produce. */
  predicate ValidCommand(c: Command) {
    match c
    case SetCycleTime(v) => Phases.ValidCycleTime(v)
    case SetMinGreen(v) => Phases.ValidMinGreen(v)
    case _ => true
  }

  function Apply(s: State, c: Command): (r: State)
    requires ValidCommand(c)
    ensures Inv(s) ==> Inv(r)
    ensures c.ToggleRunning? ==> r == s.(running := !s.running)
    ensures c.SetAdaptive? ==> r == s.(config := s.config.(adaptive := c.on))
    ensures c.SetCycleTime? ==> r == s.(config := s.config.(cycleTime := c.seconds))
    ensures c.SetMinGreen? ==> r == s.(config := s.config.(minGreen := c.seconds))
    ensures !c.ResetAll? ==> r.time == s.time && r.counts == s.counts && r.metrics == s.metrics
    ensures c.ResetAll? ==> r == Reset(s)
  {
    match c
    case ToggleRunning => s.(running := !s.running)
    case ResetAll => Reset(s)
    case SetAdaptive(on) => s.(config := s.config.(adaptive := on))
    case SetCycleTime(v) => s.(config := s.config.(cycleTime := v))
    case SetMinGreen(v) => s.(config := s.config.(minGreen := v))
  }

  /** The two engines agree: with no emergency, no crossing phase, clear
      weather and the same draw on all four approaches, a simple tick
      produces the queues, lights, history and throughput of an advanced
      tick from the same starting point. */
  lemma AgreesWithAdvanced(s: State, a: Advanced.State, now: nat, u: real, secondary: seq<real>)
    requires Inv(s) && Advanced.Inv(a)
    requires a.control.emergency.None? && !a.control.pedestrianActive && a.weather == Weather.Clear
    requires a.time == s.time && a.lights == s.lights && a.config == s.config
    requires a.queues.counts == s.counts && a.queues.history == s.history
    requires a.queues.metrics.totalProcessed == s.metrics.totalProcessed
    requires Flow.IsDraw(u) && Advanced.ValidDraws(a, Advanced.Draws(now, u, secondary))
    ensures var r := Tick(s, Draws(now, u, u, u, u));
            var q := Advanced.Tick(a, Advanced.Draws(now, u, secondary));
            && r.counts == q.queues.counts && r.lights == q.lights && r.history == q.queues.history
            && r.metrics.totalProcessed == q.queues.metrics.totalProcessed
            && r.metrics.vehiclesPerMinute == q.queues.metrics.vehiclesPerMinute
            && r.metrics.avgWaitTime == q.queues.metrics.avgWaitTime
            && r.metrics.congestionIndex as real == q.queues.metrics.congestionIndex
  {
    var d := Draws(now, u, u, u, u);
    var ad := Advanced.Draws(now, u, secondary);
    assert Arrivals(s, d) == Advanced.Arrivals(a, ad);
    Flow.SimpleIsClearWeather(Arrivals(s, d), s.lights);
    assert Advanced.Route(a.control).None?;
    assert Departed(s, d) == Advanced.Departed(a, ad);
    ClearWeatherMetrics(Total(s.counts));
  }
}

=== FILE: traffic.dfy ===
/** Vocabulary shared by both simulation engines: the four approaches, the
    signal groups, per-approach vehicle queues and small integer helpers. */
module Traffic {

  /** A value that may be absent (the source's `null`). */
  datatype Option<+T> = None | Some(value: T)

  datatype Direction = North | South | East | West

  /** North and south share one signal group, east and west the other. */
  datatype Axis = NorthSouth | EastWest

  datatype Light = Green | Yellow | Red | Off

  function AxisOf(d: Direction): Axis {
    if d == North || d == South then NorthSouth else EastWest
  }

  /** The lights shown by the north-south and the east-west group. */
  datatype Lights = Lights(ns: Light, ew: Light) {
    function Of(d: Direction): Light {
      if AxisOf(d) == NorthSouth then ns else ew
    }
  }

  /** Neither group is dark and at least one of them is red, so the two
      axes never show green (or green and yellow) at the same time. */
  predicate Safe(l: Lights) {
    l.ns != Off && l.ew != Off && (l.ns == Red || l.ew == Red)
  }

  /** Normal cycling: exactly one group is red, the other green or yellow. */
  predicate OneAxisMoving(l: Lights) {
    Safe(l) && (l.ns == Red) != (l.ew == Red)
  }

  /** Vehicles waiting on each approach. */
  datatype Counts = Counts(north: nat, south: nat, east: nat, west: nat)

  const NoVehicles := Counts(0, 0, 0, 0)

  function Get(c: Counts, d: Direction): nat {
    match d
    case North => c.north
    case South => c.south
    case East => c.east
    case West => c.west
  }

  /** Sum over the four approaches. */
  function Total(c: Counts): nat {
    c.north + c.south + c.east + c.west
  }

  function NsLoad(c: Counts): nat { c.north + c.south }

  function EwLoad(c: Counts): nat { c.east + c.west }

  function Min(a: int, b: int): int { if a <= b then a else b }

  function Max(a: int, b: int): int { if a >= b then a else b }
}

=== FILE: weather.dfy ===
/** The weather condition and the throughput multiplier it imposes. */
module Weather {

  datatype Condition = Clear | Cloudy | Rain | Snow | Fog

  /** Throughput multiplier of each condition (useAdvancedTrafficSimulation.ts:100-106). */
  function Impact(w: Condition): (r: real)
    ensures 0.5 < r <= 1.0
    ensures r == 1.0 <==> w == Clear
  {
    match w
    case Clear => 1.0
    case Cloudy => 0.95
    case Rain => 0.8
    case Snow => 0.6
    case Fog => 0.7
  }

  /** Vehicles one green approach discharges per tick in normal operation:
      `floor(3 * impact)`, capped at the queue length by the caller. */
  function NormalRate(w: Condition): (r: nat)
    ensures 1 <= r <= 3
    ensures r == 3 <==> w == Clear
    ensures r == 1 <==> w == Snow
    ensures r == 2 <==> w in {Cloudy, Rain, Fog}
  {
    (3.0 * Impact(w)).Floor
  }

  /** The discharge rate follows the impact: a condition with a lower
      impact never discharges more, and a strictly lower rate means a
      strictly lower impact. */
  lemma NormalRateMonotone(v: Condition, w: Condition)
    ensures Impact(v) <= Impact(w) ==> NormalRate(v) <= NormalRate(w)
    ensures NormalRate(v) < NormalRate(w) ==> Impact(v) < Impact(w)
  {
  }
}

=== FILE: window.dfy ===
/** Bounded rolling buffers: the JavaScript idiom `[...prev.slice(-n), x]`
    used for the traffic history and the chart data points. */
module Window {

  /** The last `n` elements of `s` (all of `s` when it is shorter), i.e. `s.slice(-n)` for n > 0. */
  function Last<T>(s: seq<T>, n: nat): (r: seq<T>)
    ensures |r| == if |s| <= n then |s| else n
    ensures r == s[|s| - |r|..]
  {
    if |s| <= n then s else s[|s| - n..]
  }

  /** Keeps the last `keep` elements and appends `x`: the buffer may hold `keep + 1` entries. */
  function Push<T>(s: seq<T>, x: T, keep: nat): (r: seq<T>)
    ensures 1 <= |r| <= keep + 1 && |r| <= |s| + 1
    ensures r[|r| - 1] == x
  {
    Last(s, keep) + [x]
  }

  /** Apart from the new last element, the buffer is the newest part of the old one. */
  lemma PushKeepsNewest<T>(s: seq<T>, x: T, keep: nat)
    ensures var r := Push(s, x, keep);
            r[..|r| - 1] == s[|s| - (|r| - 1)..] && (|s| <= keep ==> r == s + [x])
  {
    var r := Push(s, x, keep);
    assert r[..|r| - 1] == Last(s, keep);
  }

  /** A buffer that already respects the bound keeps respecting it. */
  lemma PushBounded<T>(s: seq<T>, x: T, keep: nat)
    requires |s| <= keep + 1
    ensures |Push(s, x, keep)| <= keep + 1
    ensures |s| == keep + 1 ==> Push(s, x, keep) == s[1..] + [x]
  {
  }

  /** `[...prev.slice(-keep), x]` on sampling ticks, unchanged otherwise. */
  function Sample<T>(sample: bool, buffer: seq<T>, x: T, keep: nat): (r: seq<T>)
    ensures |buffer| <= keep + 1 ==> |r| <= keep + 1
    ensures sample ==> 1 <= |r| && r[|r| - 1] == x
    ensures !sample ==> r == buffer
  {
    if sample then Push(buffer, x, keep) else buffer
  }
}
